=== FILE: README.md ===
# Ticket workflow of a support bot, in Dafny

This project models the ticket workflow of a chat support bot. A user presses
a panel button to open a ticket, which is a private channel. Staff claim the
ticket and close it in two steps: first a reason, then a confirmation. On
close, a transcript is filed in a transcript channel chosen by the ticket's
type, and the ticket channel is deleted a few seconds later.

The model covers the following:

- **State.** `Lifecycle.State` holds three things:
  - the `activeTickets` set of user ids;
  - the guild's channel cache, as one map from channel id to channel (ticket channels and transcript channels alike);
  - the channels whose deletion timer has started.

  A channel has a name, a set of user permission overwrites and a message history (oldest first). It also has an *origin*: how it came to exist (kind, requester id and username for a ticket). The code never reads the origin. It infers everything from the channel's name, and the model's handlers do the same. The origin is kept only so that properties can name the ticket's requester.
- **Handlers.** The six button handlers and the dispatcher are pure functions. Each takes the state and, where the handler needs them, the acting user and a `Platform` record. The record says how each awaited platform call turns out: channel creation, permission edit, send, fetch, transcript send, final reply. `createTicket`, `claimTicket` and `closeTicket` take all three. The two closure prompts make no platform call beyond their reply and take no `Platform`. `cancelTicketClosure` takes only the state. Each handler returns the new state and the reply shown to the user. An error that `createTicket` catches becomes `CreateFailed`. An uncaught one from the other handlers reaches the interaction error handler and becomes `RequestFailed`. The deletion timer firing is `FireDeletion`.
- **Pure helpers:**
  - custom-id building, prefix routing and `split('_')` extraction;
  - the closure-reason label;
  - transcript rendering, with the `forEach` loop as a method;
  - the choice of transcript channel by substring tests on the channel name;
  - `parseDuration`, as a leftmost-match search for `(\d+)([smhd])`;
  - the `/purge` amount bound.

The code has no per-ticket state field, and the model adds none:

- Claim edits a permission overwrite and posts a notice.
- The two closure prompts only reply.
- Cancel only replies, with no role check.

Several behaviours of the code fall short of what the bot itself promises or what its structure suggests. The model follows the code, and lemmas exhibit each one:

- **Wrong id released on close.** `closeTicket` removes the *closer's* id from `activeTickets`, not the requester's (`index.js:549`). The duplicate-ticket reply (`index.js:327`) tells a user to close their existing ticket before creating a new one, which promises one open ticket per user and a way out once it is closed. Neither holds:
  - A requester without the staff role whose ticket a staff member closes stays registered, even after the channel is gone. The next create is refused (`StaffCloseKeepsRequesterLocked`), and so is every later one until the bot restarts with an empty `activeTickets`, whatever else happens in between (`NonStaffStaysRegistered`).
  - A requester who holds the staff role is released by closing any ticket, their own (`OwnCloseReleasesRequester`) or someone else's. In the second case they can then hold two open tickets (`ClosingAnotherTicketAllowsSecond`).
  - After a restart the registry is empty while old ticket channels remain, so a requester with a surviving ticket can open a second one (`RestartAllowsSecond`).
- **No rollback after a failed create.** If the prompt send fails after the channel was created, the channel stays and the user is not registered. Nothing deletes the channel, so the user can create again and end up with two ticket channels (`FailedPromptLeavesOrphan`).
- **No Claimed or ClosurePending states.** A ticket can be claimed any number of times. Confirming a close needs no prior reason selection beyond holding a Confirm button.
- **Fixed reason and closer in the summary.** The transcript summary always gives the reason "Issue resolved" (`index.js:538`), whatever reason was chosen. It names the closer, not the requester.
- **No atomic acquire.** `has` (`index.js:325`) and `add` (`index.js:374`) are separated by awaits, so the code has no atomic check-and-set. The model runs each handler atomically (see Left out).
- **Type read from the name.** The ticket type is never stored. `closeTicket` reads it back from the channel name, so a username containing `robux_ticket` sends a general ticket's transcript to the Robux channel (`MarkerInUsernameRedirects`).

## Model

| member | source | states |
|---|---|---|
| `Text.Split` | index.js:392 | the pieces joined with the separator give back the input, and no piece contains the separator |
| `Text.SplitJoin` | index.js:392 | splitting undoes joining when no piece contains the separator |
| `Text.SplitAfterPiece` | index.js:464 | a separator-free first piece followed by `_` splits off as the first piece |
| `Text.ContainsIffOccurs` | index.js:512-514 | the left-to-right `includes` search succeeds exactly when the marker occurs at some position |
| `Text.OccurrenceIsInSuffix` | index.js:512-514 | when no occurrence can start inside the prefix, every occurrence in prefix+rest lies in the rest |
| `Text.ContainsAfterPrefix` | index.js:512-514 | an occurrence in a string survives putting text in front of it |
| `Text.SplitCount` | index.js:392 | `split` yields one more piece than the string has separators |
| `Text.Reverse` | index.js:528 | `reverse` yields the same elements in the opposite order |
| `Text.ReverseReverse` | index.js:528 | reversing the newest-first fetch gives back the oldest-first history |
| `Domain.TicketName` | index.js:334 | a ticket's name is its type, a dash, then the requester's username, in that order and nothing else |
| `Domain.TicketNameInjective` | index.js:334 | a ticket name determines both the ticket type and the username |
| `ButtonIds.CreateId` | index.js:146-153 | the create id of each ticket type differs from the create id of every other type |
| `ButtonIds.ClaimId` | index.js:360 | `claim_<channel>` splits on `_` into `claim` and the channel id, when the channel id has no `_` |
| `ButtonIds.CloseId` | index.js:364 | `close_<channel>` splits on `_` into `close` and the channel id, when the channel id has no `_` |
| `ButtonIds.ReasonId` | index.js:433-441 | each reason id splits on `_` into the reason's two words and the channel id, when the channel id has no `_` |
| `ButtonIds.ConfirmCloseId` | index.js:479 | `confirm_close_<channel>` splits on `_` into `confirm`, `close` and the channel id, when the channel id has no `_` |
| `ButtonIds.Route` | index.js:143-165 | an id reaches a handler only if it is that handler's create id, starts with its prefix, or is the cancel id; every other id is ignored |
| `ButtonIds.Field` | index.js:392 | `split('_')[i]` contains no `_`, and it exists exactly when the id has at least i separators |
| `ButtonIds.ReasonLabel` | index.js:473-474 | the reason shown is always one of the three labels; an id not marked resolved or no-response, the invalid prefix included, reads as "Invalid ticket" |
| `ButtonIds.RouteCreate` | index.js:146-153 | each panel create id selects `createTicket` with its own ticket type |
| `ButtonIds.RouteClaim` | index.js:154-155 | every `claim_` id is routed to `claimTicket` |
| `ButtonIds.RouteClose` | index.js:156-157 | every `close_` id is routed to `initiateTicketClosure`, not caught by the claim test |
| `ButtonIds.RouteReason` | index.js:158-159 | every reason id is routed to `confirmTicketClosure` |
| `ButtonIds.RouteConfirmClose` | index.js:160-161 | every `confirm_close_` id passes all earlier tests and is routed to `closeTicket` |
| `ButtonIds.RouteCancel` | index.js:162-163 | `cancel_close` is routed to `cancelTicketClosure` |
| `ButtonIds.RouteRoundTrip` | index.js:143-165 | every id the bot generates is routed to the handler it was built for |
| `ButtonIds.FieldOfClaim` | index.js:392 | `split('_')[1]` of `claim_<id>` is the id when it has no `_` |
| `ButtonIds.FieldOfClose` | index.js:421 | `split('_')[1]` of `close_<id>` is the id when it has no `_` |
| `ButtonIds.FieldOfReason` | index.js:464 | `split('_')[2]` of each reason id is the channel id when it has no `_` |
| `ButtonIds.FieldOfConfirmClose` | index.js:502 | `split('_')[2]` of `confirm_close_<id>` is the id when it has no `_` |
| `ButtonIds.FieldRoundTrip` | index.js:360-364 | every generated id gives its channel id back at the index its handler reads |
| `ButtonIds.ReasonLabelRoundTrip` | index.js:473-474 | the reason shown for a reason button is the label of the reason it was built with |
| `Transcript.Lines` | index.js:528-530 | every message contributes at least one line to the transcript body |
| `Transcript.Render` | index.js:527-530 | the transcript starts with the `Transcript of <name>:` header and a blank line, followed by at least one line per message |
| `Transcript.BuildTranscript` | index.js:527-530 | the loop's text is the header followed by one line per fetched message, oldest first |
| `Transcript.LinesAppend` | index.js:528-530 | rendering a concatenation of histories renders each in turn |
| `Transcript.OneLinePerMessage` | index.js:529 | with single-line tags and contents, the transcript body has exactly one line per message |
| `Transcript.ArchiveKind` | index.js:512-518 | the Robux archive is chosen whenever its marker occurs in the name, Vbucks only without the Robux marker, COD only without both, and the general archive exactly when no marker occurs |
| `Transcript.PrefixesDoNotOverlap` | index.js:334 | no archive marker can start inside the `type-` prefix of a ticket name of another type |
| `Transcript.ArchiveOfTicketName` | index.js:512-518 | a ticket named `${type}-${username}` with no marker in the username is archived under its own type |
| `Transcript.MarkerInUsernameRedirects` | index.js:512-518 | a username containing `robux_ticket` sends any ticket's transcript to the Robux channel |
| `Moderation.RunEnd` | index.js:628 | greedy `\d+` from a position stops at the first non-digit |
| `Moderation.Search` | index.js:628 | the regex search returns a match with no match starting earlier, or none when no position matches |
| `Moderation.ParseDuration` | index.js:627-641 | null exactly when no `digits unit` match exists; otherwise the leftmost match's value times the unit's milliseconds |
| `Moderation.DecimalValue` | index.js:631 | leading zeros do not change the value `parseInt` reads |
| `Moderation.DecimalRoundTrip` | index.js:631 | `parseInt` of a decimal numeral is the number it was written from |
| `Moderation.DurationRoundTrip` | index.js:634-639 | a numeral followed by s, m, h or d parses to 1000, 60000, 3600000 or 86400000 ms per unit |
| `Moderation.TimeoutDuration` | index.js:794-799 | the timeout handler accepts a duration exactly when it parses to a non-zero value |
| `Moderation.ZeroDurationRejected` | index.js:794-799 | `0s` parses to 0, which the timeout handler rejects as invalid |
| `Moderation.Purge` | index.js:591-608 | purge runs only for staff and only for amounts from 1 to 100 inclusive |
| `Lifecycle.Prompt` | index.js:357-369 | the ticket prompt mentions the requester and carries a Claim and a Close button, each routed to its handler and carrying the new channel's id |
| `Lifecycle.CreateTicket` | index.js:322-382 | a registered user is refused with nothing changed; the user is registered only when creation, prompt and reply all succeed; a failure after creation leaves the channel without registering; every unregistered user's failed create gets the create error reply; existing channels are untouched |
| `Lifecycle.ClaimTicket` | index.js:384-411 | non-staff are refused with nothing changed; staff get "Ticket channel not found" with nothing changed when the id names no cached channel, and the generic error reply when a later step fails; claiming never touches the registry, timers or channel names; it grants the claimer access and posts one notice |
| `Lifecycle.CloseOptionIds` | index.js:430-448 | the close prompt offers the resolved, no-response and invalid buttons, each routed to the reason handler with its own label and carrying the channel id, then Cancel |
| `Lifecycle.InitiateTicketClosure` | index.js:413-454 | never changes the state; staff get "Ticket channel not found" when the id names no cached channel; staff get the three reason buttons and Cancel for the found channel |
| `Lifecycle.ConfirmTicketClosure` | index.js:456-492 | never changes the state; staff get "Ticket channel not found" when the id names no cached channel; staff get the reason read from the id and Confirm for the found channel |
| `Lifecycle.TranscriptRecord` | index.js:532-545 | the archived record names the closer, gives the reason "Issue resolved" whatever reason was chosen, and attaches the text as `<name>-transcript.txt` |
| `Lifecycle.CloseTicket` | index.js:494-559 | registry and timers change only when every step up to the closed notice succeeds; then the closer's id is removed, the deletion timer started and the oldest-first transcript filed; a channel not found gives "Ticket channel not found" and a missing transcript channel its own reply, both changing nothing; any other failure gives the generic error reply; only the ticket and transcript channels change, no member set changes and no message is lost |
| `Lifecycle.CloseFound` | index.js:511-558 | on a found channel, a failed fetch, a missing transcript channel or a failed transcript send changes nothing; otherwise completion removes the closer's id, schedules the channel and appends the transcript record to the archive channel's log; no other channel and no member set changes; success is reported exactly when every step succeeded, and every other outcome except the missing transcript channel gives the generic error reply |
| `Lifecycle.FileTranscript` | index.js:532-545 | the transcript channel gains exactly the record of the ticket's oldest-first history, and nothing else changes |
| `Lifecycle.CommitClose` | index.js:547-558 | once the transcript is filed, a failed notice changes nothing; a sent notice is the only change to the ticket channel's history, it removes exactly the closer's id and schedules exactly this channel, and no other channel changes; a failed notice or final reply gives the generic error reply |
| `Transcript.FetchedTranscript` | index.js:511-530 | the transcript built from the newest-first fetch is the rendering of the history in posting order |
| `Lifecycle.CancelTicketClosure` | index.js:561-566 | cancel has no guard and leaves the state unchanged |
| `Lifecycle.HandleButton` | index.js:143-165 | only create ids can register and only confirm ids pressed by staff can unregister, in both cases the actor alone; non-staff change nothing except by creating; no channel disappears and only a create adds one, the one the platform created |
| `Lifecycle.FireDeletion` | index.js:551-553 | the timer deletes the channel on success and never touches the registry |
| `LifecycleProofs.Initial` | index.js:61 | the start-up state, with an empty registry beside whatever ticket channels survive a restart, satisfies the invariant |
| `LifecycleProofs.HandleButtonPreservesInv` | index.js:322-566 | every button interaction keeps timers on existing channels and ticket channels under their `${type}-${username}` names |
| `LifecycleProofs.FireDeletionPreservesInv` | index.js:551-553 | the deletion timer keeps the invariant |
| `LifecycleProofs.CloseArchivesUnderOwnKind` | index.js:512-545 | in a reachable state, a completed close files the oldest-first transcript in the transcript channel of the ticket's own type when the username has no marker |
| `LifecycleProofs.StaffGuard` | index.js:385-500 | without the staff role, claim, close, reason and confirm each give the permission error and change nothing |
| `LifecycleProofs.CancelChangesNothing` | index.js:561-566 | the cancel button, pressed by anyone, leaves the state unchanged |
| `LifecycleProofs.SecondCreateRejected` | index.js:325-330 | after a completed create, the same user's next create is refused with nothing changed |
| `LifecycleProofs.DispatchCreate` | index.js:146-153 | a create button runs `createTicket` with its own type |
| `LifecycleProofs.DispatchConfirmClose` | index.js:160-161 | a Confirm button runs `closeTicket` on the channel it was built for |
| `LifecycleProofs.ButtonsReachTheirTicket` | index.js:357-502 | the prompt's buttons, the three reason buttons and Confirm each act on the ticket they were made for |
| `LifecycleProofs.CreateAddsOpenTicket` | index.js:333-374 | a completed create adds exactly the new channel to the user's open tickets |
| `LifecycleProofs.CloseKeepsOtherOpen` | index.js:542-553 | closing one channel leaves the closer's other open tickets open |
| `LifecycleProofs.StaffCloseKeepsRequesterLocked` | index.js:549 | after a staff member closes a requester's ticket and the channel is deleted, the requester is still registered and is refused a new ticket |
| `LifecycleProofs.OwnCloseReleasesRequester` | index.js:549 | a requester with the staff role who closes their own ticket can open a new one |
| `LifecycleProofs.ClosingAnotherTicketAllowsSecond` | index.js:549 | a staff member who closes another's ticket loses their own registration and can hold two open tickets |
| `LifecycleProofs.RestartAllowsSecond` | index.js:61 | after a restart, a requester whose ticket channel survived can create a second open ticket |
| `LifecycleProofs.NonStaffStaysRegistered` | index.js:549 | a registered user who never presses a button with the staff role stays registered through any possible run of presses and timers |
| `LifecycleProofs.FailedPromptLeavesOrphan` | index.js:369-381 | a create whose prompt send fails leaves its channel without registering the user, so a second create gives two open ticket channels |

## Left out

- **Concurrency.** Each handler runs as one atomic step. In the code, the `activeTickets.has` check (`index.js:325`) and the `add` (`index.js:374`) are separated by awaits. Two concurrent creates by one user can therefore both pass the check, and that race is not modelled.
- **Platform calls.** Each call is reduced to success or failure: channel creation with its permission overwrites, the permission edit, message fetch and send, reply edits and channel deletion. Embed text, colours and button labels are not modelled. The category a ticket channel is created under is dropped because nothing reads it back.
- Purge: the bulk delete is not modelled. `Purge` covers only the staff check and the 1..100 bound (`index.js:591-607`). In the code a failed bulk delete posts its own error reply from the `.catch` (`index.js:610-617`), and the success reply (`index.js:619`) is still attempted afterwards; neither is modelled.
- **Reply failures.** The deferred reply (`index.js:83`) is not modelled, and neither is an error handler whose own reply fails. A failed final reply is modelled in `createTicket`, `claimTicket` and `closeTicket`, where it turns success into `CreateFailed` or `RequestFailed`. In `createTicket` it also decides whether the user is registered. These reply failures are not modelled, although in the code each one throws into `handleInteractionError` (`index.js:87`, `index.js:901-907`), which posts the generic error reply:
  - the prompt replies of the two closure steps, which change no state;
  - the "already have an active ticket" refusal (`index.js:326`);
  - the four "no permission" refusals of claim, initiate, confirm and close;
  - the "Ticket channel not found" and "Transcript channel not found" replies;
  - the reply of `cancelTicketClosure` (`index.js:562`).
- CreateTicket: requires the channel id the platform hands back to be new to the guild cache (`FreshChannel`), since the platform never reuses a channel id. The model says nothing about a create that would overwrite an existing channel.
- **Channel-name normalisation.** Names are stored exactly as `${type}-${username}` (`index.js:334`), and the substring tests on the name are case-sensitive. The platform stores text-channel names lower-cased, with spaces and other characters replaced, and `closeTicket` reads the stored name back (`index.js:512`). `NamedAfterOrigin`, `ArchiveOfTicketName` and `CloseArchivesUnderOwnKind` rest on the name being kept verbatim. Under normalisation, a username such as `ROBUX_TICKET` would also send a general ticket's transcript to the Robux channel.
- CloseTicket: the fetch is modelled as returning the whole channel history. The platform's default page of the 50 most recent messages is not modelled, so a longer history has its oldest messages missing from the real transcript.
- FireDeletion: only the existence of a pending deletion is recorded, not the 5000 ms delay. A second close of the same channel before the timer fires starts a second timer in the code. The model keeps one set entry.
- ParseDuration: values are exact integers. JavaScript's `parseInt` and the multiplications are floating point and lose precision above 2^53.
- **Untouched commands and events.** These are thin wrappers over platform calls or pure presentation:
  - the panel and payment-information commands, stock commands, `/lock`, and the ban, kick, unban and untimeout commands;
  - the timeout command's platform call (only its duration check is modelled);
  - the welcome and goodbye events and the message edit and delete audit;
  - `logAction`, the winston logger, slash-command registration and the process-level error handlers.
- **Member chat.** Messages that members post in a ticket are not an operation of the model. The transcript properties are stated for any channel history.

=== FILE: button_ids.dfy ===
/**
 * Button custom ids: how the bot builds them, how `handleButtonInteraction`
 * routes them by prefix, how the handlers recover the channel id with
 * `split('_')`, and how the closure reason label is read off the prefix.
 */
module ButtonIds {
  import opened Wrappers
  import opened Text
  import opened Domain

  const Sep: char := '_'

  const ClaimPrefix: string := "claim_"
  const ClosePrefix: string := "close_"
  const ConfirmClosePrefix: string := "confirm_close_"
  const CancelCloseId: string := "cancel_close"

  /** The three closure reasons offered by the close prompt. */
  datatype CloseReason = Resolved | NoResponse | Invalid

  function ReasonPrefix(r: CloseReason): string
  {
    match r
    case Resolved => "resolve_issue_"
    case NoResponse => "no_response_"
    case Invalid => "invalid_ticket_"
  }

  /** The reason text shown in the confirmation prompt. */
  function Label(r: CloseReason): string
  {
    match r
    case Resolved => "Issue resolved"
    case NoResponse => "No response from user"
    case Invalid => "Invalid ticket"
  }

  /** The id of a panel's create button, `create_` followed by the ticket type; each type has its own. */
  function CreateId(k: TicketKind): (id: string)
    ensures forall k' :: "create_" + KindName(k') == id ==> k' == k
  {
    assert forall k' :: ("create_" + KindName(k'))[7] == KindName(k')[0];
    "create_" + KindName(k)
  }

  /** The Claim button of the ticket prompt: `claim_<channel>`, the channel id as the second piece. */
  function ClaimId(c: ChannelId): (id: string)
    ensures Sep !in c ==> Split(id, Sep) == ["claim", c]
  {
    assert ClaimPrefix + c == "claim" + [Sep] + c;
    OnePieceId("claim", c);
    ClaimPrefix + c
  }

  /** The Close button of the ticket prompt: `close_<channel>`, the channel id as the second piece. */
  function CloseId(c: ChannelId): (id: string)
    ensures Sep !in c ==> Split(id, Sep) == ["close", c]
  {
    assert ClosePrefix + c == "close" + [Sep] + c;
    OnePieceId("close", c);
    ClosePrefix + c
  }

  /** The words of a reason prefix, split on `_`. */
  function ReasonWords(r: CloseReason): (string, string)
  {
    match r
    case Resolved => ("resolve", "issue")
    case NoResponse => ("no", "response")
    case Invalid => ("invalid", "ticket")
  }

  lemma ReasonPrefixWords(r: CloseReason)
    ensures ReasonPrefix(r) == ReasonWords(r).0 + [Sep] + ReasonWords(r).1 + [Sep]
  {
  }

  /** A reason button of the close prompt: the reason's two words, then the channel id as the third piece. */
  function ReasonId(r: CloseReason, c: ChannelId): (id: string)
    ensures Sep !in c ==> Split(id, Sep) == [ReasonWords(r).0, ReasonWords(r).1, c]
  {
    var w := ReasonWords(r);
    ReasonPrefixWords(r);
    assert ReasonPrefix(r) + c == w.0 + [Sep] + (w.1 + [Sep] + c);
    TwoPieceId(w.0, w.1, c);
    ReasonPrefix(r) + c
  }

  /** The Confirm button of the confirmation prompt: `confirm_close_<channel>`, the channel id as the third piece. */
  function ConfirmCloseId(c: ChannelId): (id: string)
    ensures Sep !in c ==> Split(id, Sep) == ["confirm", "close", c]
  {
    assert ConfirmClosePrefix + c == "confirm" + [Sep] + ("close" + [Sep] + c);
    TwoPieceId("confirm", "close", c);
    ConfirmClosePrefix + c
  }

  /** The handler a custom id is routed to. */
  datatype Action =
    | Create(kind: TicketKind)
    | Claim
    | InitiateClose
    | ChooseReason
    | ConfirmClose
    | CancelClose
    | Ignore

  /**
   * The if-chain of `handleButtonInteraction`, first match wins: an id is
   * routed to a handler only when it is that handler's create id, carries
   * its prefix, or is the cancel id; anything else is ignored.
   */
  function Route(id: string): (a: Action)
    ensures a.Create? ==> id == CreateId(a.kind)
    ensures a == Claim ==> StartsWith(id, ClaimPrefix)
    ensures a == InitiateClose ==> StartsWith(id, ClosePrefix) && !StartsWith(id, ClaimPrefix)
    ensures a == ChooseReason ==> exists r :: StartsWith(id, ReasonPrefix(r))
    ensures a == ConfirmClose ==> StartsWith(id, ConfirmClosePrefix)
    ensures a == CancelClose ==> id == CancelCloseId
    ensures a == Ignore ==>
      && (forall k :: id != CreateId(k))
      && !StartsWith(id, ClaimPrefix) && !StartsWith(id, ClosePrefix)
      && (forall r :: !StartsWith(id, ReasonPrefix(r)))
      && !StartsWith(id, ConfirmClosePrefix) && id != CancelCloseId
  {
    if id == CreateId(General) then Create(General)
    else if id == CreateId(Robux) then Create(Robux)
    else if id == CreateId(Vbucks) then Create(Vbucks)
    else if id == CreateId(Cod) then Create(Cod)
    else if StartsWith(id, ClaimPrefix) then Claim
    else if StartsWith(id, ClosePrefix) then InitiateClose
    else if StartsWith(id, ReasonPrefix(Resolved)) || StartsWith(id, ReasonPrefix(NoResponse))
      || StartsWith(id, ReasonPrefix(Invalid)) then ChooseReason
    else if StartsWith(id, ConfirmClosePrefix) then ConfirmClose
    else if id == CancelCloseId then CancelClose
    else Ignore
  }

  /**
   * `id.split('_')[i]`: a piece without `_`, present exactly when id has at
   * least i separators, and `undefined` past the last piece.
   */
  function Field(id: string, i: nat): (r: Option<string>)
    ensures r.Some? ==> Sep !in r.value
    ensures r.Some? <==> i <= Count(id, Sep)
  {
    var parts := Split(id, Sep);
    SplitCount(id, Sep);
    if i < |parts| then Some(parts[i]) else None
  }

  /**
   * The ternary of `confirmTicketClosure`: always one of the three labels,
   * and any id not marked resolved or no-response reads as invalid.
   */
  function ReasonLabel(id: string): (text: string)
    ensures text == Label(Resolved) || text == Label(NoResponse) || text == Label(Invalid)
    ensures StartsWith(id, ReasonPrefix(Invalid)) ==> text == Label(Invalid)
    ensures !StartsWith(id, ReasonPrefix(Resolved)) && !StartsWith(id, ReasonPrefix(NoResponse)) ==>
      text == Label(Invalid)
  {
    if StartsWith(id, ReasonPrefix(Resolved)) then
      assert id[0] == 'r';
      Label(Resolved)
    else if StartsWith(id, ReasonPrefix(NoResponse)) then
      assert id[0] == 'n';
      Label(NoResponse)
    else Label(Invalid)
  }

  lemma StartsWithOwnPrefix(p: string, c: string)
    ensures StartsWith(p + c, p)
  {
    assert (p + c)[..|p|] == p;
  }

  /** A string that differs from p at a position inside both does not start with p. */
  lemma DiffersFrom(s: string, p: string, k: nat)
    requires k < |s| && k < |p| && s[k] != p[k]
    ensures !StartsWith(s, p)
  {
  }

  /** A string whose character at k differs from that of every create id is none of them. */
  lemma NotACreateId(s: string, k: nat)
    requires k < |s| && k < 13
    requires s[k] != CreateId(General)[k] && s[k] != CreateId(Robux)[k]
    requires s[k] != CreateId(Vbucks)[k] && s[k] != CreateId(Cod)[k]
    ensures forall t :: s != CreateId(t)
  {
    forall t ensures s != CreateId(t) {
      assert t.General? || t.Robux? || t.Vbucks? || t.Cod?;
    }
  }

  lemma RouteCreate(k: TicketKind)
    ensures Route(CreateId(k)) == Create(k)
  {
    assert CreateId(Robux)[7] == 'r' && CreateId(Vbucks)[7] == 'v' && CreateId(Cod)[7] == 'c';
    assert CreateId(General)[7] == 't';
  }

  lemma RouteClaim(c: ChannelId)
    ensures Route(ClaimId(c)) == Claim
  {
    NotACreateId(ClaimId(c), 1);
    StartsWithOwnPrefix(ClaimPrefix, c);
  }

  lemma RouteClose(c: ChannelId)
    ensures Route(CloseId(c)) == InitiateClose
  {
    var id := CloseId(c);
    NotACreateId(id, 1);
    DiffersFrom(id, ClaimPrefix, 2);
    StartsWithOwnPrefix(ClosePrefix, c);
  }

  lemma RouteReason(r: CloseReason, c: ChannelId)
    ensures Route(ReasonId(r, c)) == ChooseReason
  {
    var id := ReasonId(r, c);
    NotACreateId(id, 0);
    DiffersFrom(id, ClaimPrefix, 0);
    DiffersFrom(id, ClosePrefix, 0);
    StartsWithOwnPrefix(ReasonPrefix(r), c);
  }

  lemma RouteConfirmClose(c: ChannelId)
    ensures Route(ConfirmCloseId(c)) == ConfirmClose
  {
    var id := ConfirmCloseId(c);
    NotACreateId(id, 1);
    DiffersFrom(id, ClaimPrefix, 1);
    DiffersFrom(id, ClosePrefix, 1);
    DiffersFrom(id, ReasonPrefix(Resolved), 0);
    DiffersFrom(id, ReasonPrefix(NoResponse), 0);
    DiffersFrom(id, ReasonPrefix(Invalid), 0);
    StartsWithOwnPrefix(ConfirmClosePrefix, c);
  }

  lemma RouteCancel()
    ensures Route(CancelCloseId) == CancelClose
  {
    var id := CancelCloseId;
    NotACreateId(id, 1);
    DiffersFrom(id, ClaimPrefix, 1);
    DiffersFrom(id, ClosePrefix, 1);
    DiffersFrom(id, ReasonPrefix(Resolved), 0);
    DiffersFrom(id, ReasonPrefix(NoResponse), 0);
    DiffersFrom(id, ReasonPrefix(Invalid), 0);
    DiffersFrom(id, ConfirmClosePrefix, 1);
  }

  /** Every id the bot generates is routed by the if-chain to the handler it was made for. */
  lemma RouteRoundTrip(c: ChannelId)
    ensures forall k :: Route(CreateId(k)) == Create(k)
    ensures Route(ClaimId(c)) == Claim
    ensures Route(CloseId(c)) == InitiateClose
    ensures forall r :: Route(ReasonId(r, c)) == ChooseReason
    ensures Route(ConfirmCloseId(c)) == ConfirmClose
    ensures Route(CancelCloseId) == CancelClose
  {
    forall k ensures Route(CreateId(k)) == Create(k) { RouteCreate(k); }
    RouteClaim(c);
    RouteClose(c);
    forall r ensures Route(ReasonId(r, c)) == ChooseReason { RouteReason(r, c); }
    RouteConfirmClose(c);
    RouteCancel();
  }

  /** Splitting `p_c` on `_` for separator-free p and c. */
  lemma OnePiecePrefix(p: string, c: string)
    requires Sep !in p && Sep !in c
    ensures Split(p + [Sep] + c, Sep) == [p, c]
  {
    SplitWithoutSeparator(c, Sep);
    SplitAfterPiece(p, Sep, c);
  }

  /** An id `p_c` splits into p and c whenever c has no separator. */
  lemma OnePieceId(p: string, c: string)
    requires Sep !in p
    ensures Sep !in c ==> Split(p + [Sep] + c, Sep) == [p, c]
  {
    if Sep !in c {
      OnePiecePrefix(p, c);
    }
  }

  /** An id `a_b_c` splits into a, b and c whenever c has no separator. */
  lemma TwoPieceId(a: string, b: string, c: string)
    requires Sep !in a && Sep !in b
    ensures Sep !in c ==> Split(a + [Sep] + (b + [Sep] + c), Sep) == [a, b, c]
  {
    if Sep !in c {
      TwoPiecePrefix(a, b, c);
    }
  }

  /** Splitting `a_b_c` on `_` for separator-free a, b and c. */
  lemma TwoPiecePrefix(a: string, b: string, c: string)
    requires Sep !in a && Sep !in b && Sep !in c
    ensures Split(a + [Sep] + (b + [Sep] + c), Sep) == [a, b, c]
  {
    SplitWithoutSeparator(c, Sep);
    SplitAfterPiece(b, Sep, c);
    SplitAfterPiece(a, Sep, b + [Sep] + c);
  }

  lemma FieldOfClaim(c: ChannelId)
    requires Sep !in c
    ensures Field(ClaimId(c), 1) == Some(c)
  {
  }

  lemma FieldOfClose(c: ChannelId)
    requires Sep !in c
    ensures Field(CloseId(c), 1) == Some(c)
  {
  }

  lemma FieldOfReason(r: CloseReason, c: ChannelId)
    requires Sep !in c
    ensures Field(ReasonId(r, c), 2) == Some(c)
  {
  }

  lemma FieldOfConfirmClose(c: ChannelId)
    requires Sep !in c
    ensures Field(ConfirmCloseId(c), 2) == Some(c)
  {
  }

  /** For a channel id without `_`, the handlers' split index gives the channel id back. */
  lemma FieldRoundTrip(c: ChannelId)
    requires Sep !in c
    ensures Field(ClaimId(c), 1) == Some(c)
    ensures Field(CloseId(c), 1) == Some(c)
    ensures forall r :: Field(ReasonId(r, c), 2) == Some(c)
    ensures Field(ConfirmCloseId(c), 2) == Some(c)
  {
    FieldOfClaim(c);
    FieldOfClose(c);
    forall r ensures Field(ReasonId(r, c), 2) == Some(c) { FieldOfReason(r, c); }
    FieldOfConfirmClose(c);
  }

  /** The label shown for a reason button is the label of the reason it was built for. */
  lemma {:induction false} ReasonLabelRoundTrip(r: CloseReason, c: ChannelId)
    ensures ReasonLabel(ReasonId(r, c)) == Label(r)
  {
    var id := ReasonId(r, c);
    StartsWithOwnPrefix(ReasonPrefix(r), c);
    match r
    case Resolved =>
    case NoResponse =>
      DiffersFrom(id, ReasonPrefix(Resolved), 0);
    case Invalid =>
      DiffersFrom(id, ReasonPrefix(Resolved), 0);
      DiffersFrom(id, ReasonPrefix(NoResponse), 0);
  }
}

=== FILE: domain.dfy ===
/**
 * The entities the ticket workflow manipulates: identifiers, the four ticket
 * kinds, messages, channels of the guild's channel cache, the acting user of
 * an interaction and the bot's configuration.
 */
module Domain {

  /** Platform identifiers (snowflakes) are opaque strings. */
  type UserId = string
  type ChannelId = string
  type RoleId = string

  /** The ticket types passed by the dispatcher to `createTicket`. */
  datatype TicketKind = General | Robux | Vbucks | Cod

  /** The `ticketType` string of each kind; it is also the archive marker. */
  function KindName(k: TicketKind): string
  {
    match k
    case General => "ticket"
    case Robux => "robux_ticket"
    case Vbucks => "vbucks_ticket"
    case Cod => "cod_ticket"
  }

  /** The channel name `${ticketType}-${username}` of a new ticket. */
  function TicketName(k: TicketKind, username: string): (name: string)
    ensures |name| == |KindName(k)| + 1 + |username|
    ensures name[..|KindName(k)| + 1] == KindName(k) + "-"
    ensures name[|KindName(k)| + 1..] == username
  {
    KindName(k) + "-" + username
  }

  /** A ticket name determines the ticket's type and the requester's username. */
  lemma TicketNameInjective(k1: TicketKind, u1: string, k2: TicketKind, u2: string)
    requires TicketName(k1, u1) == TicketName(k2, u2)
    ensures k1 == k2 && u1 == u2
  {
    assert TicketName(k1, u1)[0] == KindName(k1)[0];
    assert TicketName(k2, u2)[0] == KindName(k2)[0];
  }

  /** The platform's rendering of a user as a mention. */
  function Mention(u: UserId): string
  {
    "<@" + u + ">"
  }

  /** The fields of the summary embed posted with an archived transcript. */
  datatype Summary = Summary(title: string, mention: string, userTag: string, userId: UserId, reason: string)

  /** What a message carries besides its text content (embed styling is not modelled). */
  datatype Attachment =
    | NoAttachment
    | Controls(ids: seq<string>)
    | TranscriptFile(summary: Summary, fileName: string, text: string)

  /** A posted message: its author's tag, its text content and its payload. */
  datatype Message = Message(author: string, content: string, attachment: Attachment)

  /**
   * How a channel came to exist. The code never reads this: it infers the
   * kind of a ticket from the channel's name. It is kept so that properties
   * can relate a channel to the request that created it.
   */
  datatype Origin = TicketOf(kind: TicketKind, requester: UserId, username: string) | Other

  /** A channel of the guild cache: name, origin, user permission overwrites, history (oldest first). */
  datatype Channel = Channel(name: string, origin: Origin, members: set<UserId>, log: seq<Message>)

  /** The user behind an interaction, with the roles of their guild membership. */
  datatype Actor = Actor(id: UserId, username: string, tag: string, roles: set<RoleId>)

  /** The configuration entries the workflow reads. */
  datatype Config = Config(
    staffRole: RoleId,
    botTag: string,
    generalArchive: ChannelId,
    robuxArchive: ChannelId,
    vbucksArchive: ChannelId,
    codArchive: ChannelId)
  {
    /** The transcript channel configured for a kind. */
    function Archive(k: TicketKind): ChannelId
    {
      match k
      case General => generalArchive
      case Robux => robuxArchive
      case Vbucks => vbucksArchive
      case Cod => codArchive
    }
  }

  /** The role check every staff operation starts with. */
  predicate IsStaff(cfg: Config, a: Actor)
  {
    cfg.staffRole in a.roles
  }
}

=== FILE: lifecycle.dfy ===
/**
 * The ticket workflow of the bot: the `activeTickets` registry, the guild's
 * channel cache, and the six button handlers with the dispatcher in front of
 * them. Every awaited platform call is an outcome supplied by the caller;
 * each handler is a function from the state and those outcomes to the new
 * state and the reply the acting user sees.
 */
module Lifecycle {
  import opened Wrappers
  import opened Text
  import opened Domain
  import opened ButtonIds
  import opened Transcript

  /**
   * The state the workflow touches: the set of user ids counted as holding a
   * ticket, every channel of the guild cache, and the channels whose deletion
   * timer has been started and has not fired yet.
   */
  datatype State = State(active: set<UserId>, channels: map<ChannelId, Channel>, pendingDeletion: set<ChannelId>)

  /** How each awaited platform call of one interaction turns out. */
  datatype Platform = Platform(
    created: Option<ChannelId>,  // guild.channels.create: the new channel's id, or a rejection
    grantOk: bool,               // permissionOverwrites.edit on the ticket channel
    sendOk: bool,                // a send to the ticket channel
    fetchOk: bool,               // messages.fetch on the ticket channel
    archiveOk: bool,             // the send to the transcript channel
    replyOk: bool)               // the final editReply acknowledging success

  /** The ephemeral reply shown to the user who pressed the button. */
  datatype Reply =
    | AlreadyActive
    | TicketCreated(channel: ChannelId)
    | CreateFailed
    | NoPermission
    | ChannelNotFound
    | TicketClaimed
    | CloseOptions(ids: seq<string>)
    | ConfirmPrompt(reason: string, ids: seq<string>)
    | TranscriptChannelNotFound
    | TicketClosed
    | ClosureCanceled
    | RequestFailed  // the generic message of the interaction error handler
    | NoReply

  datatype Step = Step(state: State, reply: Reply)

  /** Appends a message to a channel's history. */
  function Post(s: State, c: ChannelId, m: Message): (s': State)
    requires c in s.channels
    ensures s'.active == s.active && s'.pendingDeletion == s.pendingDeletion
    ensures s'.channels.Keys == s.channels.Keys
    ensures s'.channels[c] == s.channels[c].(log := s.channels[c].log + [m])
    ensures forall d :: d in s.channels && d != c ==> s'.channels[d] == s.channels[d]
  {
    s.(channels := s.channels[c := s.channels[c].(log := s.channels[c].log + [m])])
  }

  /** `guild.channels.cache.get(key)`: found only for a defined key naming a cached channel. */
  function Lookup(s: State, key: Option<string>): (r: Option<ChannelId>)
    ensures r.Some? <==> key.Some? && key.value in s.channels
    ensures r.Some? ==> r == key
  {
    if key.Some? && key.value in s.channels then key else None
  }

  /** Every channel keeps its name and origin, and no channel appears or disappears. */
  predicate SameChannels(s: State, s': State)
  {
    && s'.channels.Keys == s.channels.Keys
    && forall d :: d in s.channels ==>
         s'.channels[d].name == s.channels[d].name && s'.channels[d].origin == s.channels[d].origin
  }

  /**
   * The message posted in a new ticket: a mention of the requester with a
   * Claim and a Close button, both routed to their handlers and both carrying
   * the new channel's id.
   */
  function Prompt(cfg: Config, requester: UserId, c: ChannelId): (m: Message)
    ensures m.content == Mention(requester)
    ensures m.attachment.Controls? && |m.attachment.ids| == 2
    ensures Route(m.attachment.ids[0]) == Claim && Route(m.attachment.ids[1]) == InitiateClose
    ensures Sep !in c ==> Field(m.attachment.ids[0], 1) == Some(c) && Field(m.attachment.ids[1], 1) == Some(c)
  {
    RouteClaim(c);
    RouteClose(c);
    Message(cfg.botTag, Mention(requester), Controls([ClaimId(c), CloseId(c)]))
  }

  /** A notice posted by the bot (claim, closed); its text is in an embed, so its content is empty. */
  function Notice(cfg: Config): Message
  {
    Message(cfg.botTag, "", NoAttachment)
  }

  /** The platform hands out a channel id that is not already in the guild cache. */
  predicate FreshChannel(s: State, env: Platform)
  {
    env.created.Some? ==> env.created.value !in s.channels
  }

  /** Every platform call of `createTicket` succeeds for a user not yet registered. */
  predicate CreateCompletes(s: State, actor: Actor, env: Platform)
  {
    actor.id !in s.active && env.created.Some? && env.sendOk && env.replyOk
  }

  /**
   * `createTicket`: refuse a registered user; otherwise create the channel,
   * post the prompt, acknowledge, and only then register the user. A failure
   * after the channel exists leaves the channel behind without registering.
   */
  function CreateTicket(s: State, cfg: Config, actor: Actor, kind: TicketKind, env: Platform): (r: Step)
    requires actor.id !in s.active ==> FreshChannel(s, env)
    ensures actor.id in s.active ==> r == Step(s, AlreadyActive)
    ensures r.state.active == if CreateCompletes(s, actor, env) then s.active + {actor.id} else s.active
    ensures r.reply.TicketCreated? <==> CreateCompletes(s, actor, env)
    ensures actor.id !in s.active && !CreateCompletes(s, actor, env) ==> r.reply == CreateFailed
    ensures r.reply.TicketCreated? ==> Some(r.reply.channel) == env.created
    ensures r.state.pendingDeletion == s.pendingDeletion
    ensures env.created.None? ==> r.state == s
    ensures actor.id !in s.active && env.created.Some? ==>
      var c := env.created.value;
      && r.state.channels.Keys == s.channels.Keys + {c}
      && (forall d :: d in s.channels ==> r.state.channels[d] == s.channels[d])
      && r.state.channels[c].name == TicketName(kind, actor.username)
      && r.state.channels[c].origin == TicketOf(kind, actor.id, actor.username)
      && r.state.channels[c].members == {actor.id}
      && r.state.channels[c].log == (if env.sendOk then [Prompt(cfg, actor.id, c)] else [])
  {
    if actor.id in s.active then Step(s, AlreadyActive)
    else match env.created
      case None => Step(s, CreateFailed)
      case Some(c) =>
        var ch := Channel(TicketName(kind, actor.username), TicketOf(kind, actor.id, actor.username), {actor.id}, []);
        var s1 := s.(channels := s.channels[c := ch]);
        if !env.sendOk then Step(s1, CreateFailed)
        else
          var s2 := Post(s1, c, Prompt(cfg, actor.id, c));
          if !env.replyOk then Step(s2, CreateFailed)
          else Step(s2.(active := s2.active + {actor.id}), TicketCreated(c))
  }

  /**
   * `claimTicket`: staff only; the channel named by `split('_')[1]` gets a
   * permission overwrite for the claimer and a claim notice. Nothing records
   * the claim, so a ticket can be claimed any number of times.
   */
  function ClaimTicket(s: State, cfg: Config, actor: Actor, id: string, env: Platform): (r: Step)
    ensures !IsStaff(cfg, actor) ==> r == Step(s, NoPermission)
    ensures IsStaff(cfg, actor) && Lookup(s, Field(id, 1)).None? ==> r == Step(s, ChannelNotFound)
    ensures IsStaff(cfg, actor) && Lookup(s, Field(id, 1)).Some? && r.reply != TicketClaimed ==>
      r.reply == RequestFailed
    ensures r.state.active == s.active && r.state.pendingDeletion == s.pendingDeletion
    ensures SameChannels(s, r.state)
    ensures r.reply == TicketClaimed <==>
      IsStaff(cfg, actor) && Lookup(s, Field(id, 1)).Some? && env.grantOk && env.sendOk && env.replyOk
    ensures r.state != s ==> IsStaff(cfg, actor) && Lookup(s, Field(id, 1)).Some? && env.grantOk
    ensures IsStaff(cfg, actor) && Lookup(s, Field(id, 1)).Some? && env.grantOk ==>
      var c := Lookup(s, Field(id, 1)).value;
      && r.state.channels[c].members == s.channels[c].members + {actor.id}
      && r.state.channels[c].log == s.channels[c].log + (if env.sendOk then [Notice(cfg)] else [])
      && forall d :: d in s.channels && d != c ==> r.state.channels[d] == s.channels[d]
  {
    if !IsStaff(cfg, actor) then Step(s, NoPermission)
    else match Lookup(s, Field(id, 1))
      case None => Step(s, ChannelNotFound)
      case Some(c) =>
        if !env.grantOk then Step(s, RequestFailed)
        else
          var s1 := s.(channels := s.channels[c := s.channels[c].(members := s.channels[c].members + {actor.id})]);
          if !env.sendOk then Step(s1, RequestFailed)
          else Step(Post(s1, c, Notice(cfg)), if env.replyOk then TicketClaimed else RequestFailed)
  }

  /**
   * The ids of the buttons offered by the close prompt of channel c: three
   * reason buttons, in the order resolved, no response, invalid, each routed
   * to `confirmTicketClosure` with its own label and carrying c, then Cancel.
   */
  function CloseOptionIds(c: ChannelId): (ids: seq<string>)
    ensures |ids| == 4 && Route(ids[3]) == CancelClose
    ensures Route(ids[0]) == ChooseReason && Route(ids[1]) == ChooseReason && Route(ids[2]) == ChooseReason
    ensures ReasonLabel(ids[0]) == Label(Resolved) && ReasonLabel(ids[1]) == Label(NoResponse)
    ensures ReasonLabel(ids[2]) == Label(Invalid)
    ensures Sep !in c ==> Field(ids[0], 2) == Some(c) && Field(ids[1], 2) == Some(c) && Field(ids[2], 2) == Some(c)
  {
    RouteReason(Resolved, c);
    RouteReason(NoResponse, c);
    RouteReason(Invalid, c);
    RouteCancel();
    ReasonLabelRoundTrip(Resolved, c);
    ReasonLabelRoundTrip(NoResponse, c);
    ReasonLabelRoundTrip(Invalid, c);
    [ReasonId(Resolved, c), ReasonId(NoResponse, c), ReasonId(Invalid, c), CancelCloseId]
  }

  /** `initiateTicketClosure`: staff only; offers the three reasons and Cancel, and changes nothing. */
  function InitiateTicketClosure(s: State, cfg: Config, actor: Actor, id: string): (r: Step)
    ensures r.state == s
    ensures !IsStaff(cfg, actor) ==> r.reply == NoPermission
    ensures IsStaff(cfg, actor) && Lookup(s, Field(id, 1)).None? ==> r.reply == ChannelNotFound
    ensures r.reply.CloseOptions? <==> IsStaff(cfg, actor) && Lookup(s, Field(id, 1)).Some?
    ensures r.reply.CloseOptions? ==> r.reply.ids == CloseOptionIds(Lookup(s, Field(id, 1)).value)
  {
    if !IsStaff(cfg, actor) then Step(s, NoPermission)
    else match Lookup(s, Field(id, 1))
      case None => Step(s, ChannelNotFound)
      case Some(c) => Step(s, CloseOptions(CloseOptionIds(c)))
  }

  /** `confirmTicketClosure`: staff only; shows the chosen reason with Confirm and Cancel, and changes nothing. */
  function ConfirmTicketClosure(s: State, cfg: Config, actor: Actor, id: string): (r: Step)
    ensures r.state == s
    ensures !IsStaff(cfg, actor) ==> r.reply == NoPermission
    ensures IsStaff(cfg, actor) && Lookup(s, Field(id, 2)).None? ==> r.reply == ChannelNotFound
    ensures r.reply.ConfirmPrompt? <==> IsStaff(cfg, actor) && Lookup(s, Field(id, 2)).Some?
    ensures r.reply.ConfirmPrompt? ==>
      && r.reply.reason == ReasonLabel(id)
      && r.reply.ids == [ConfirmCloseId(Lookup(s, Field(id, 2)).value), CancelCloseId]
  {
    if !IsStaff(cfg, actor) then Step(s, NoPermission)
    else match Lookup(s, Field(id, 2))
      case None => Step(s, ChannelNotFound)
      case Some(c) => Step(s, ConfirmPrompt(ReasonLabel(id), [ConfirmCloseId(c), CancelCloseId]))
  }

  /** The transcript channel `closeTicket` picks for a ticket channel, by its name. */
  function ArchiveFor(s: State, cfg: Config, c: ChannelId): ChannelId
    requires c in s.channels
  {
    cfg.Archive(ArchiveKind(s.channels[c].name))
  }

  /**
   * The archived transcript: a summary naming the closer (not the requester)
   * with the reason always "Issue resolved", and the rendered history as a file.
   */
  function TranscriptRecord(cfg: Config, closer: Actor, name: string, text: string): (m: Message)
    ensures m.attachment.TranscriptFile? && m.attachment.text == text
    ensures m.attachment.fileName == name + "-transcript.txt"
    ensures m.attachment.summary.userId == closer.id && m.attachment.summary.mention == Mention(closer.id)
    ensures m.attachment.summary.reason == Label(Resolved)
  {
    var summary := Summary("\U{1F4C4} Transcript of " + name, Mention(closer.id), closer.tag, closer.id, Label(Resolved));
    Message(cfg.botTag, "", TranscriptFile(summary, name + "-transcript.txt", text))
  }

  /** Every step of `closeTicket` up to the closed notice succeeds. */
  predicate CloseCompletes(s: State, cfg: Config, actor: Actor, id: string, env: Platform)
  {
    && IsStaff(cfg, actor)
    && Lookup(s, Field(id, 2)).Some?
    && env.fetchOk
    && ArchiveFor(s, cfg, Lookup(s, Field(id, 2)).value) in s.channels
    && env.archiveOk
    && env.sendOk
  }

  /** `closeTicket` reaches the transcript channel lookup and finds nothing. */
  predicate ArchiveMissing(s: State, cfg: Config, actor: Actor, id: string, env: Platform)
  {
    && IsStaff(cfg, actor)
    && Lookup(s, Field(id, 2)).Some?
    && env.fetchOk
    && ArchiveFor(s, cfg, Lookup(s, Field(id, 2)).value) !in s.channels
  }

  /** The record filed for channel c when `actor` closes it: its full history, oldest first. */
  function FiledRecord(s: State, cfg: Config, actor: Actor, c: ChannelId): Message
    requires c in s.channels
  {
    TranscriptRecord(cfg, actor, s.channels[c].name, Render(s.channels[c].name, s.channels[c].log))
  }

  /** Channel dest's history in s' is its history in s followed by m (and possibly more). */
  predicate Filed(s: State, s': State, dest: ChannelId, m: Message)
  {
    dest in s.channels && dest in s'.channels && s.channels[dest].log + [m] <= s'.channels[dest].log
  }

  /** Every step of `closeTicket` after the lookup of channel c, up to the closed notice, succeeds. */
  predicate CloseFoundCompletes(s: State, cfg: Config, c: ChannelId, env: Platform)
    requires c in s.channels
  {
    env.fetchOk && ArchiveFor(s, cfg, c) in s.channels && env.archiveOk && env.sendOk
  }

  /**
   * The part of `closeTicket` after the ticket channel c was found: fetch its
   * history, pick the transcript channel by name, post the transcript there,
   * post the closed notice, then remove the CLOSER's id from the registry and
   * start the deletion timer.
   */
  function CloseFound(s: State, cfg: Config, actor: Actor, c: ChannelId, env: Platform): (r: Step)
    requires c in s.channels
    ensures SameChannels(s, r.state)
    ensures CloseFoundCompletes(s, cfg, c, env) ==> r.state.active == s.active - {actor.id}
    ensures CloseFoundCompletes(s, cfg, c, env) ==> r.state.pendingDeletion == s.pendingDeletion + {c}
    ensures CloseFoundCompletes(s, cfg, c, env) ==> Filed(s, r.state, ArchiveFor(s, cfg, c), FiledRecord(s, cfg, actor, c))
    ensures !CloseFoundCompletes(s, cfg, c, env) ==> r.state.active == s.active && r.state.pendingDeletion == s.pendingDeletion
    ensures !env.fetchOk ==> r == Step(s, RequestFailed)
    ensures env.fetchOk && ArchiveFor(s, cfg, c) !in s.channels ==> r == Step(s, TranscriptChannelNotFound)
    ensures env.fetchOk && ArchiveFor(s, cfg, c) in s.channels && !env.archiveOk ==> r == Step(s, RequestFailed)
    ensures forall d :: d in s.channels && d != c && d != ArchiveFor(s, cfg, c) ==> r.state.channels[d] == s.channels[d]
    ensures forall d :: d in s.channels ==> r.state.channels[d].members == s.channels[d].members
    ensures forall d :: d in s.channels ==> s.channels[d].log <= r.state.channels[d].log
    ensures r.reply == TicketClosed <==> CloseFoundCompletes(s, cfg, c, env) && env.replyOk
    ensures !(env.fetchOk && ArchiveFor(s, cfg, c) !in s.channels) && r.reply != TicketClosed ==>
      r.reply == RequestFailed
  {
    if !env.fetchOk then Step(s, RequestFailed)
    else
      var dest := ArchiveFor(s, cfg, c);
      if dest !in s.channels then Step(s, TranscriptChannelNotFound)
      else if !env.archiveOk then Step(s, RequestFailed)
      else
        CommitClose(FileTranscript(s, cfg, actor, c), cfg, actor, c, env)
  }

  /**
   * The transcript send of `closeTicket`: the record of channel c, its
   * history oldest first, is appended to the transcript channel and nothing
   * else changes.
   */
  function FileTranscript(s: State, cfg: Config, actor: Actor, c: ChannelId): (s': State)
    requires c in s.channels && ArchiveFor(s, cfg, c) in s.channels
    ensures SameChannels(s, s') && s'.active == s.active && s'.pendingDeletion == s.pendingDeletion
    ensures s'.channels[ArchiveFor(s, cfg, c)].log == s.channels[ArchiveFor(s, cfg, c)].log + [FiledRecord(s, cfg, actor, c)]
    ensures forall d :: d in s.channels && d != ArchiveFor(s, cfg, c) ==> s'.channels[d] == s.channels[d]
    ensures forall d :: d in s.channels ==> s'.channels[d].members == s.channels[d].members
  {
    var ch := s.channels[c];
    Post(s, ArchiveFor(s, cfg, c), TranscriptRecord(cfg, actor, ch.name, FetchedTranscript(ch.name, ch.log)))
  }

  /**
   * The end of `closeTicket`, once the transcript is filed: post the closed
   * notice, then remove the closer's id and start the deletion timer.
   */
  function CommitClose(s: State, cfg: Config, actor: Actor, c: ChannelId, env: Platform): (r: Step)
    requires c in s.channels
    ensures SameChannels(s, r.state)
    ensures forall d :: d in s.channels && d != c ==> r.state.channels[d] == s.channels[d]
    ensures forall d :: d in s.channels ==> r.state.channels[d].members == s.channels[d].members
    ensures env.sendOk ==> r.state.channels[c].log == s.channels[c].log + [Notice(cfg)]
    ensures forall d :: d in s.channels ==> s.channels[d].log <= r.state.channels[d].log
    ensures env.sendOk ==> r.state.active == s.active - {actor.id} && r.state.pendingDeletion == s.pendingDeletion + {c}
    ensures !env.sendOk ==> r == Step(s, RequestFailed)
    ensures r.reply == TicketClosed <==> env.sendOk && env.replyOk
    ensures r.reply != TicketClosed ==> r.reply == RequestFailed
  {
    if !env.sendOk then Step(s, RequestFailed)
    else
      var s2 := Post(s, c, Notice(cfg));
      var s3 := s2.(active := s2.active - {actor.id}, pendingDeletion := s2.pendingDeletion + {c});
      Step(s3, if env.replyOk then TicketClosed else RequestFailed)
  }

  /** `closeTicket`: staff only; the channel named by `split('_')[2]`, then the steps of `CloseFound`. */
  function CloseTicket(s: State, cfg: Config, actor: Actor, id: string, env: Platform): (r: Step)
    ensures !IsStaff(cfg, actor) ==> r == Step(s, NoPermission)
    ensures IsStaff(cfg, actor) && Lookup(s, Field(id, 2)).None? ==> r == Step(s, ChannelNotFound)
    ensures (IsStaff(cfg, actor) && Lookup(s, Field(id, 2)).Some? && !ArchiveMissing(s, cfg, actor, id, env)
      && r.reply != TicketClosed) ==> r.reply == RequestFailed
    ensures SameChannels(s, r.state)
    ensures CloseCompletes(s, cfg, actor, id, env) ==>
      var c := Lookup(s, Field(id, 2)).value;
      && r.state.active == s.active - {actor.id}
      && r.state.pendingDeletion == s.pendingDeletion + {c}
      && Filed(s, r.state, ArchiveFor(s, cfg, c), FiledRecord(s, cfg, actor, c))
    ensures !CloseCompletes(s, cfg, actor, id, env) ==>
      r.state.active == s.active && r.state.pendingDeletion == s.pendingDeletion
    ensures ArchiveMissing(s, cfg, actor, id, env) ==> r == Step(s, TranscriptChannelNotFound)
    ensures r.reply == TicketClosed <==> CloseCompletes(s, cfg, actor, id, env) && env.replyOk
    ensures Lookup(s, Field(id, 2)).None? ==> r.state == s
    ensures forall d :: d in s.channels ==> r.state.channels[d].members == s.channels[d].members
    ensures forall d :: d in s.channels ==> s.channels[d].log <= r.state.channels[d].log
    ensures r.state != s ==>
      var c := Lookup(s, Field(id, 2)).value;
      && IsStaff(cfg, actor) && env.fetchOk && ArchiveFor(s, cfg, c) in s.channels && env.archiveOk
      && forall d :: d in s.channels && d != c && d != ArchiveFor(s, cfg, c) ==> r.state.channels[d] == s.channels[d]
  {
    if !IsStaff(cfg, actor) then Step(s, NoPermission)
    else match Lookup(s, Field(id, 2))
      case None => Step(s, ChannelNotFound)
      case Some(c) => CloseFound(s, cfg, actor, c, env)
  }

  /** `cancelTicketClosure`: no role check; it clears the prompt and changes nothing. */
  function CancelTicketClosure(s: State): (r: Step)
    ensures r.state == s && r.reply == ClosureCanceled
  {
    Step(s, ClosureCanceled)
  }

  /** `handleButtonInteraction`: route the custom id and run the handler it selects. */
  function HandleButton(s: State, cfg: Config, actor: Actor, id: string, env: Platform): (r: Step)
    requires Route(id).Create? && actor.id !in s.active ==> FreshChannel(s, env)
    ensures Route(id) == Ignore ==> r == Step(s, NoReply)
    ensures r.state.active - s.active <= {actor.id}
    ensures s.active - r.state.active <= {actor.id}
    ensures r.state.active != s.active ==> Route(id).Create? || Route(id) == ConfirmClose
    ensures actor.id in r.state.active - s.active ==> Route(id).Create?
    ensures s.active - r.state.active != {} ==> Route(id) == ConfirmClose && IsStaff(cfg, actor)
    ensures !IsStaff(cfg, actor) && !Route(id).Create? ==> r.state == s
    ensures r.state.pendingDeletion != s.pendingDeletion ==> Route(id) == ConfirmClose
    ensures s.channels.Keys <= r.state.channels.Keys
    ensures !Route(id).Create? ==> r.state.channels.Keys == s.channels.Keys
    ensures forall d :: d in r.state.channels && d !in s.channels ==> env.created == Some(d)
  {
    match Route(id)
    case Create(k) => CreateTicket(s, cfg, actor, k, env)
    case Claim => ClaimTicket(s, cfg, actor, id, env)
    case InitiateClose => InitiateTicketClosure(s, cfg, actor, id)
    case ChooseReason => ConfirmTicketClosure(s, cfg, actor, id)
    case ConfirmClose => CloseTicket(s, cfg, actor, id, env)
    case CancelClose => CancelTicketClosure(s)
    case Ignore => Step(s, NoReply)
  }

  /**
   * The deletion timer firing: `ticketChannel.delete()` removes the channel
   * when it succeeds; a failure is an unhandled rejection that leaves it.
   * The registry is not touched.
   */
  function FireDeletion(s: State, c: ChannelId, deleteOk: bool): (r: State)
    requires c in s.pendingDeletion
    ensures r.active == s.active
    ensures r.pendingDeletion == s.pendingDeletion - {c}
    ensures r.channels == if deleteOk then s.channels - {c} else s.channels
  {
    s.(channels := if deleteOk then s.channels - {c} else s.channels, pendingDeletion := s.pendingDeletion - {c})
  }
}

=== FILE: lifecycle_proofs.dfy ===
/**
 * Properties of the ticket workflow that span several interactions: an
 * invariant every handler keeps, the path of the generated buttons through
 * the dispatcher, and what the registry does (and fails to do) across a
 * create / close / create sequence.
 */
module LifecycleProofs {
  import opened Wrappers
  import opened Text
  import opened Domain
  import opened ButtonIds
  import opened Transcript
  import opened Lifecycle

  /** A ticket channel still carries the name it was created with. */
  predicate NamedAfterOrigin(ch: Channel)
  {
    ch.origin.TicketOf? ==> ch.name == TicketName(ch.origin.kind, ch.origin.username)
  }

  /** Timers only run for channels that exist, and ticket channels keep their `${type}-${username}` names. */
  ghost predicate Inv(s: State)
  {
    && s.pendingDeletion <= s.channels.Keys
    && forall c :: c in s.channels ==> NamedAfterOrigin(s.channels[c])
  }

  /**
   * The state at start-up: `activeTickets` is a fresh empty set and no timer
   * runs, while the guild may still hold ticket channels from before a
   * restart.
   */
  function Initial(channels: map<ChannelId, Channel>): (s: State)
    requires forall c :: c in channels ==> NamedAfterOrigin(channels[c])
    ensures Inv(s) && s.active == {}
  {
    State({}, channels, {})
  }

  /** The ticket channels of user u that exist and are not awaiting deletion. */
  function OpenTickets(s: State, u: UserId): set<ChannelId>
  {
    set c | c in s.channels && s.channels[c].origin.TicketOf? && s.channels[c].origin.requester == u
      && c !in s.pendingDeletion
  }

  lemma {:induction false} SameChannelsKeepInv(s: State, s': State)
    requires Inv(s) && SameChannels(s, s') && s'.pendingDeletion <= s.pendingDeletion + s.channels.Keys
    ensures Inv(s')
  {
    forall c | c in s'.channels ensures NamedAfterOrigin(s'.channels[c]) {
      assert NamedAfterOrigin(s.channels[c]);
    }
  }

  /** Every button interaction keeps the invariant, whatever the platform does. */
  lemma {:induction false} HandleButtonPreservesInv(s: State, cfg: Config, actor: Actor, id: string, env: Platform)
    requires Inv(s)
    requires Route(id).Create? && actor.id !in s.active ==> FreshChannel(s, env)
    ensures Inv(HandleButton(s, cfg, actor, id, env).state)
  {
    var r := HandleButton(s, cfg, actor, id, env);
    match Route(id)
    case Create(k) =>
      if actor.id !in s.active && env.created.Some? {
        var c := env.created.value;
        forall d | d in r.state.channels ensures NamedAfterOrigin(r.state.channels[d]) {
          if d != c {
            assert NamedAfterOrigin(s.channels[d]);
          }
        }
      }
    case Claim =>
      SameChannelsKeepInv(s, r.state);
    case ConfirmClose =>
      SameChannelsKeepInv(s, r.state);
    case InitiateClose =>
    case ChooseReason =>
    case CancelClose =>
    case Ignore =>
  }

  /** A deletion timer firing keeps the invariant. */
  lemma FireDeletionPreservesInv(s: State, c: ChannelId, deleteOk: bool)
    requires Inv(s) && c in s.pendingDeletion
    ensures Inv(FireDeletion(s, c, deleteOk))
  {
    var r := FireDeletion(s, c, deleteOk);
    forall d | d in r.channels ensures NamedAfterOrigin(r.channels[d]) {
      assert NamedAfterOrigin(s.channels[d]);
    }
  }

  /**
   * In a reachable state, closing a ticket whose requester's username has no
   * archive marker files the transcript, oldest message first, in the
   * transcript channel configured for the ticket's own type.
   */
  lemma {:induction false} CloseArchivesUnderOwnKind(s: State, cfg: Config, actor: Actor, id: string, env: Platform)
    requires Inv(s)
    requires CloseCompletes(s, cfg, actor, id, env)
    requires s.channels[Lookup(s, Field(id, 2)).value].origin.TicketOf?
    requires MarkerFree(s.channels[Lookup(s, Field(id, 2)).value].origin.username)
    ensures
      var c := Lookup(s, Field(id, 2)).value;
      var ch := s.channels[c];
      var dest := cfg.Archive(ch.origin.kind);
      Filed(s, CloseTicket(s, cfg, actor, id, env).state, dest, FiledRecord(s, cfg, actor, c))
  {
    var c := Lookup(s, Field(id, 2)).value;
    var ch := s.channels[c];
    assert NamedAfterOrigin(ch);
    ArchiveOfTicketName(ch.origin.kind, ch.origin.username);
  }

  /** Without the staff role, every guarded handler answers with the permission error and changes nothing. */
  lemma StaffGuard(s: State, cfg: Config, actor: Actor, id: string, env: Platform)
    requires !IsStaff(cfg, actor)
    requires Route(id) in {Claim, InitiateClose, ChooseReason, ConfirmClose}
    ensures HandleButton(s, cfg, actor, id, env) == Step(s, NoPermission)
  {
  }

  /** Cancel is routed for anyone, staff or not, and leaves the state as it was. */
  lemma {:induction false} CancelChangesNothing(s: State, cfg: Config, actor: Actor, env: Platform)
    ensures Route(CancelCloseId) == CancelClose && HandleButton(s, cfg, actor, CancelCloseId, env) == Step(s, ClosureCanceled)
  {
    RouteCancel();
  }

  /** A create button runs `createTicket` with its own ticket type. */
  lemma DispatchCreate(s: State, cfg: Config, actor: Actor, k: TicketKind, env: Platform)
    requires actor.id !in s.active ==> FreshChannel(s, env)
    ensures Route(CreateId(k)) == Create(k)
    ensures HandleButton(s, cfg, actor, CreateId(k), env) == CreateTicket(s, cfg, actor, k, env)
  {
    RouteCreate(k);
  }

  /** A registered user's create button is refused with nothing changed. */
  lemma RegisteredUserRefused(s: State, cfg: Config, u: Actor, k: TicketKind, env: Platform)
    requires u.id in s.active
    ensures HandleButton(s, cfg, u, CreateId(k), env) == Step(s, AlreadyActive)
  {
    DispatchCreate(s, cfg, u, k, env);
  }

  /** A Confirm button runs `closeTicket`, which finds the channel it was made for. */
  lemma DispatchConfirmClose(s: State, cfg: Config, actor: Actor, c: ChannelId, env: Platform)
    requires Sep !in c
    ensures Route(ConfirmCloseId(c)) == ConfirmClose
    ensures HandleButton(s, cfg, actor, ConfirmCloseId(c), env) == CloseTicket(s, cfg, actor, ConfirmCloseId(c), env)
    ensures Lookup(s, Field(ConfirmCloseId(c), 2)) == if c in s.channels then Some(c) else None
  {
    RouteConfirmClose(c);
    FieldOfConfirmClose(c);
  }

  /** Once a create has gone through, any further create by the same user is refused and changes nothing. */
  lemma {:induction false} SecondCreateRejected(s: State, cfg: Config, u: Actor, k1: TicketKind, k2: TicketKind,
                                                env1: Platform, env2: Platform)
    requires CreateCompletes(s, u, env1) && FreshChannel(s, env1)
    ensures
      var s1 := HandleButton(s, cfg, u, CreateId(k1), env1).state;
      && u.id in s1.active
      && HandleButton(s1, cfg, u, CreateId(k2), env2) == Step(s1, AlreadyActive)
  {
    RouteCreate(k1);
    RouteCreate(k2);
  }

  /**
   * The buttons the bot hands out lead back to the ticket they were made
   * for: the prompt's Claim and Close buttons, the three reason buttons of
   * the close prompt and the Confirm button of the confirmation prompt.
   */
  lemma {:induction false} ButtonsReachTheirTicket(s: State, cfg: Config, staff: Actor, c: ChannelId, env: Platform)
    requires IsStaff(cfg, staff) && c in s.channels && Sep !in c
    ensures Route(ClaimId(c)) == Claim && Route(CloseId(c)) == InitiateClose && Route(ConfirmCloseId(c)) == ConfirmClose
    ensures forall r :: Route(ReasonId(r, c)) == ChooseReason
    ensures env.grantOk ==>
      HandleButton(s, cfg, staff, ClaimId(c), env).state.channels[c].members == s.channels[c].members + {staff.id}
    ensures HandleButton(s, cfg, staff, CloseId(c), env) == Step(s, CloseOptions(CloseOptionIds(c)))
    ensures forall r :: (HandleButton(s, cfg, staff, ReasonId(r, c), env)
      == Step(s, ConfirmPrompt(Label(r), [ConfirmCloseId(c), CancelCloseId])))
    ensures CloseCompletes(s, cfg, staff, ConfirmCloseId(c), env) <==>
      env.fetchOk && ArchiveFor(s, cfg, c) in s.channels && env.archiveOk && env.sendOk
    ensures CloseCompletes(s, cfg, staff, ConfirmCloseId(c), env) ==>
      c in HandleButton(s, cfg, staff, ConfirmCloseId(c), env).state.pendingDeletion
  {
    RouteRoundTrip(c);
    FieldRoundTrip(c);
    forall r ensures HandleButton(s, cfg, staff, ReasonId(r, c), env)
      == Step(s, ConfirmPrompt(Label(r), [ConfirmCloseId(c), CancelCloseId]))
    {
      ReasonLabelRoundTrip(r, c);
    }
  }

  /** A ticket just created can be closed through its Confirm button when every later platform call succeeds. */
  lemma {:induction false} CreatedTicketCloses(s: State, cfg: Config, requester: Actor, closer: Actor,
                                               kind: TicketKind, c: ChannelId, env: Platform)
    requires c !in s.channels && Sep !in c
    requires CreateCompletes(s, requester, env) && env.created == Some(c)
    requires IsStaff(cfg, closer)
    requires env.fetchOk && env.archiveOk && env.sendOk
    requires cfg.Archive(ArchiveKind(TicketName(kind, requester.username))) in s.channels
    ensures
      var s1 := CreateTicket(s, cfg, requester, kind, env).state;
      && requester.id in s1.active
      && Route(ConfirmCloseId(c)) == ConfirmClose
      && HandleButton(s1, cfg, closer, ConfirmCloseId(c), env) == CloseTicket(s1, cfg, closer, ConfirmCloseId(c), env)
      && Lookup(s1, Field(ConfirmCloseId(c), 2)) == Some(c)
      && CloseCompletes(s1, cfg, closer, ConfirmCloseId(c), env)
  {
    var s1 := CreateTicket(s, cfg, requester, kind, env).state;
    DispatchConfirmClose(s1, cfg, closer, c, env);
  }

  /** A completed close by someone else leaves the requester registered and starts the deletion timer. */
  lemma {:induction false} OtherCloserKeepsRequester(s1: State, cfg: Config, requester: Actor, staff: Actor,
                                                     c: ChannelId, env: Platform)
    requires requester.id in s1.active && staff.id != requester.id
    requires Lookup(s1, Field(ConfirmCloseId(c), 2)) == Some(c)
    requires CloseCompletes(s1, cfg, staff, ConfirmCloseId(c), env)
    ensures
      var s2 := CloseTicket(s1, cfg, staff, ConfirmCloseId(c), env).state;
      requester.id in s2.active && c in s2.pendingDeletion
  {
  }

  /**
   * A staff member who is not the requester closes the ticket: the closer's
   * id is removed, the requester's stays, and even after the channel is gone
   * the requester's next create is refused.
   */
  lemma {:induction false} StaffCloseKeepsRequesterLocked(s: State, cfg: Config, requester: Actor, staff: Actor,
                                                          kind: TicketKind, c: ChannelId, env: Platform, later: Platform)
    requires c !in s.channels && Sep !in c
    requires CreateCompletes(s, requester, env) && env.created == Some(c)
    requires IsStaff(cfg, staff) && staff.id != requester.id
    requires env.fetchOk && env.archiveOk && env.sendOk
    requires cfg.Archive(ArchiveKind(TicketName(kind, requester.username))) in s.channels
    ensures Route(ConfirmCloseId(c)) == ConfirmClose
    ensures
      var s1 := HandleButton(s, cfg, requester, CreateId(kind), env).state;
      var s2 := HandleButton(s1, cfg, staff, ConfirmCloseId(c), env).state;
      && c in s2.pendingDeletion
      && var s3 := FireDeletion(s2, c, true);
      && c !in s3.channels
      && requester.id in s3.active
      && HandleButton(s3, cfg, requester, CreateId(kind), later) == Step(s3, AlreadyActive)
  {
    RouteConfirmClose(c);
    DispatchCreate(s, cfg, requester, kind, env);
    CreatedTicketCloses(s, cfg, requester, staff, kind, c, env);
    var s1 := CreateTicket(s, cfg, requester, kind, env).state;
    OtherCloserKeepsRequester(s1, cfg, requester, staff, c, env);
    var s2 := CloseTicket(s1, cfg, staff, ConfirmCloseId(c), env).state;
    var s3 := FireDeletion(s2, c, true);
    RegisteredUserRefused(s3, cfg, requester, kind, later);
  }

  /** A requester who holds the staff role and closes their own ticket may open a new one. */
  lemma {:induction false} OwnCloseReleasesRequester(s: State, cfg: Config, requester: Actor, kind: TicketKind,
                                                     c: ChannelId, env: Platform, later: Platform)
    requires c !in s.channels && Sep !in c
    requires CreateCompletes(s, requester, env) && env.created == Some(c)
    requires IsStaff(cfg, requester)
    requires env.fetchOk && env.archiveOk && env.sendOk
    requires cfg.Archive(ArchiveKind(TicketName(kind, requester.username))) in s.channels
    requires later.created.Some? && later.sendOk && later.replyOk
    requires later.created.value !in s.channels && later.created.value != c
    ensures Route(ConfirmCloseId(c)) == ConfirmClose
    ensures
      var s1 := HandleButton(s, cfg, requester, CreateId(kind), env).state;
      var s2 := HandleButton(s1, cfg, requester, ConfirmCloseId(c), env).state;
      && requester.id !in s2.active
      && HandleButton(s2, cfg, requester, CreateId(kind), later).reply.TicketCreated?
  {
    RouteConfirmClose(c);
    DispatchCreate(s, cfg, requester, kind, env);
    CreatedTicketCloses(s, cfg, requester, requester, kind, c, env);
    var s1 := CreateTicket(s, cfg, requester, kind, env).state;
    var s2 := CloseTicket(s1, cfg, requester, ConfirmCloseId(c), env).state;
    DispatchCreate(s2, cfg, requester, kind, later);
  }

  /** A completed create adds the new channel to the user's open tickets and keeps the others. */
  lemma {:induction false} CreateAddsOpenTicket(s: State, cfg: Config, u: Actor, kind: TicketKind, env: Platform)
    requires CreateCompletes(s, u, env)
    requires env.created.value !in s.channels && env.created.value !in s.pendingDeletion
    ensures OpenTickets(CreateTicket(s, cfg, u, kind, env).state, u.id) == OpenTickets(s, u.id) + {env.created.value}
  {
    var s2 := CreateTicket(s, cfg, u, kind, env).state;
    var c := env.created.value;
    forall d ensures d in OpenTickets(s2, u.id) <==> d in OpenTickets(s, u.id) + {c} {
      if d != c && d in s.channels {
        assert s2.channels[d] == s.channels[d];
      }
    }
  }

  /** A completed close by u of a channel other than `mine` leaves `mine` among u's open tickets. */
  lemma {:induction false} CloseKeepsOtherOpen(s: State, cfg: Config, u: Actor, id: string, env: Platform, mine: ChannelId)
    requires mine in OpenTickets(s, u.id)
    requires CloseCompletes(s, cfg, u, id, env) && Lookup(s, Field(id, 2)).value != mine
    ensures mine in OpenTickets(CloseTicket(s, cfg, u, id, env).state, u.id)
  {
    var s1 := CloseTicket(s, cfg, u, id, env).state;
    assert s1.channels[mine].origin == s.channels[mine].origin;
  }

  /**
   * A staff member who holds an open ticket and closes someone else's loses
   * their own registration, and can then hold two open tickets at once.
   */
  lemma {:induction false} ClosingAnotherTicketAllowsSecond(s: State, cfg: Config, staff: Actor, mine: ChannelId,
                                                             other: ChannelId, newer: ChannelId, kind: TicketKind, env: Platform)
    requires Inv(s)
    requires mine in OpenTickets(s, staff.id) && staff.id in s.active
    requires other in s.channels && other != mine && Sep !in other
    requires CloseCompletes(s, cfg, staff, ConfirmCloseId(other), env)
    requires env.created == Some(newer) && newer !in s.channels && env.replyOk
    ensures Route(ConfirmCloseId(other)) == ConfirmClose
    ensures
      var s1 := HandleButton(s, cfg, staff, ConfirmCloseId(other), env).state;
      var s2 := HandleButton(s1, cfg, staff, CreateId(kind), env).state;
      && staff.id !in s1.active
      && mine != newer
      && {mine, newer} <= OpenTickets(s2, staff.id)
  {
    assert newer !in s.pendingDeletion;
    DispatchConfirmClose(s, cfg, staff, other, env);
    var s1 := CloseTicket(s, cfg, staff, ConfirmCloseId(other), env).state;
    CloseKeepsOtherOpen(s, cfg, staff, ConfirmCloseId(other), env, mine);
    assert newer !in s1.pendingDeletion && newer !in s1.channels;
    DispatchCreate(s1, cfg, staff, kind, env);
    CreateAddsOpenTicket(s1, cfg, staff, kind, env);
  }

  /**
   * A create whose prompt cannot be posted leaves its channel behind without
   * registering the user, so the user can create again and end up with two
   * ticket channels.
   */
  lemma {:induction false} FailedPromptLeavesOrphan(s: State, cfg: Config, u: Actor, kind: TicketKind,
                                                     c1: ChannelId, c2: ChannelId, env1: Platform, env2: Platform)
    requires u.id !in s.active
    requires env1.created == Some(c1) && !env1.sendOk && c1 !in s.channels && c1 !in s.pendingDeletion
    requires env2.created == Some(c2) && c2 != c1 && c2 !in s.channels && c2 !in s.pendingDeletion
    requires env2.sendOk && env2.replyOk
    ensures
      var s1 := HandleButton(s, cfg, u, CreateId(kind), env1).state;
      var s2 := HandleButton(s1, cfg, u, CreateId(kind), env2).state;
      && u.id !in s1.active
      && {c1, c2} <= OpenTickets(s2, u.id)
  {
    RouteCreate(kind);
  }

  /**
   * After a restart the registry is empty, so a requester whose ticket
   * channel survived in the guild can open a second ticket beside it.
   */
  lemma {:induction false} RestartAllowsSecond(channels: map<ChannelId, Channel>, cfg: Config, u: Actor,
                                               kind: TicketKind, mine: ChannelId, env: Platform)
    requires forall c :: c in channels ==> NamedAfterOrigin(channels[c])
    requires mine in channels && channels[mine].origin.TicketOf? && channels[mine].origin.requester == u.id
    requires env.created.Some? && env.created.value !in channels && env.sendOk && env.replyOk
    ensures Route(CreateId(kind)) == Create(kind)
    ensures
      var s := Initial(channels);
      {mine, env.created.value} <= OpenTickets(HandleButton(s, cfg, u, CreateId(kind), env).state, u.id)
  {
    var s := Initial(channels);
    DispatchCreate(s, cfg, u, kind, env);
    CreateAddsOpenTicket(s, cfg, u, kind, env);
  }

  /** One thing that happens to the workflow: a button press, or a deletion timer firing. */
  datatype Event =
    | Press(actor: Actor, id: string, env: Platform)
    | Fire(channel: ChannelId, deleteOk: bool)

  /** The event can happen in s: a timer fires only once started, and a new channel gets a fresh id. */
  predicate Possible(s: State, e: Event)
  {
    match e
    case Press(actor, id, env) => Route(id).Create? && actor.id !in s.active ==> FreshChannel(s, env)
    case Fire(c, _) => c in s.pendingDeletion
  }

  /** The state after one event that can happen. */
  function Apply(s: State, cfg: Config, e: Event): State
    requires Possible(s, e)
  {
    match e
    case Press(actor, id, env) => HandleButton(s, cfg, actor, id, env).state
    case Fire(c, ok) => FireDeletion(s, c, ok)
  }

  /** The state after a sequence of events, or None when some event cannot happen where it occurs. */
  function Replay(s: State, cfg: Config, events: seq<Event>): Option<State>
    decreases |events|
  {
    if |events| == 0 then Some(s)
    else if !Possible(s, events[0]) then None
    else Replay(Apply(s, cfg, events[0]), cfg, events[1..])
  }

  /**
   * A registered user who never presses a button with the staff role stays
   * registered through any run of the bot: only a confirmed close removes an
   * id, only the closer's, and only staff can confirm. A requester whose
   * ticket was closed by staff is therefore refused until the bot restarts.
   */
  lemma {:induction false} NonStaffStaysRegistered(s: State, cfg: Config, u: UserId, events: seq<Event>)
    requires u in s.active
    requires forall i :: 0 <= i < |events| && events[i].Press? && events[i].actor.id == u ==>
      !IsStaff(cfg, events[i].actor)
    ensures Replay(s, cfg, events).Some? ==> u in Replay(s, cfg, events).value.active
    decreases |events|
  {
    if |events| > 0 && Possible(s, events[0]) {
      var next := Apply(s, cfg, events[0]);
      assert u in next.active by {
        match events[0]
        case Press(actor, id, env) =>
          assert actor.id == u ==> !IsStaff(cfg, actor);
        case Fire(c, ok) =>
      }
      assert forall i :: 0 <= i < |events[1..]| ==> events[1..][i] == events[i + 1];
      NonStaffStaysRegistered(next, cfg, u, events[1..]);
    }
  }
}

=== FILE: moderation.dfy ===
/**
 * The two integer checks of the moderation commands that the workflow keeps:
 * `parseDuration` with the timeout handler's reading of its result, and the
 * amount bound of `/purge`.
 */
module Moderation {
  import opened Wrappers

  /** `\d` without the `u` flag: an ASCII decimal digit. */
  predicate IsDigit(ch: char)
  {
    '0' <= ch <= '9'
  }

  /** `[smhd]`. */
  predicate IsUnit(ch: char)
  {
    ch == 's' || ch == 'm' || ch == 'h' || ch == 'd'
  }

  /** Milliseconds per unit, as the `switch` of `parseDuration` multiplies them out. */
  function UnitMillis(u: char): nat
    requires IsUnit(u)
  {
    match u
    case 's' => 1000
    case 'm' => 60 * 1000
    case 'h' => 60 * 60 * 1000
    case 'd' => 24 * 60 * 60 * 1000
  }

  predicate AllDigits(s: string)
  {
    forall k :: 0 <= k < |s| ==> IsDigit(s[k])
  }

  /** `parseInt` of a string of decimal digits; leading zeros do not change the value. */
  function DecimalValue(s: string): (v: nat)
    requires AllDigits(s)
    ensures |s| > 0 && s[0] == '0' ==> v == DecimalValue(s[1..])
    decreases |s|
  {
    if |s| == 0 then 0
    else
      var init := s[..|s| - 1];
      assert |s| >= 2 ==> s[1..][..|s| - 2] == init[1..];
      10 * DecimalValue(init) + (s[|s| - 1] - '0') as nat
  }

  /** `(\d+)([smhd])` matches s with the digit group s[i..j] and the unit s[j]. */
  predicate IsMatch(s: string, i: int, j: int)
  {
    0 <= i < j < |s| && AllDigits(s[i..j]) && IsUnit(s[j])
  }

  /** Some match of the pattern starts at i. */
  ghost predicate MatchesFrom(s: string, i: int)
  {
    exists j :: IsMatch(s, i, j)
  }

  /** The end of the run of digits starting at i. */
  function RunEnd(s: string, i: nat): (j: nat)
    requires i <= |s|
    ensures i <= j <= |s|
    ensures AllDigits(s[i..j])
    ensures j == |s| || !IsDigit(s[j])
    decreases |s| - i
  {
    if i < |s| && IsDigit(s[i]) then
      var j := RunEnd(s, i + 1);
      assert s[i..j] == [s[i]] + s[i + 1..j];
      j
    else i
  }

  /** A match starting at i must use the whole digit run: `\d+` cannot stop early before a unit. */
  lemma MatchUsesWholeRun(s: string, i: nat, j: int)
    requires i <= |s|
    requires IsMatch(s, i, j)
    ensures j == RunEnd(s, i)
  {
    var e := RunEnd(s, i);
    assert forall k :: i <= k < j ==> IsDigit(s[k]) by {
      forall k | i <= k < j ensures IsDigit(s[k]) { assert s[i..j][k - i] == s[k]; }
    }
    assert forall k :: i <= k < e ==> IsDigit(s[k]) by {
      forall k | i <= k < e ensures IsDigit(s[k]) { assert s[i..e][k - i] == s[k]; }
    }
  }

  /**
   * The regular-expression search: the leftmost start position from which the
   * pattern matches, together with the end of its digit group.
   */
  function Search(s: string, i: nat): (r: Option<(nat, nat)>)
    requires i <= |s|
    ensures r.Some? ==> i <= r.value.0 && IsMatch(s, r.value.0, r.value.1)
    ensures r.Some? ==> forall k :: i <= k < r.value.0 ==> !MatchesFrom(s, k)
    ensures r.None? ==> forall k :: i <= k < |s| ==> !MatchesFrom(s, k)
    decreases |s| - i
  {
    if i == |s| then None
    else
      var j := RunEnd(s, i);
      if i < j < |s| && IsUnit(s[j]) then Some((i, j))
      else
        assert !MatchesFrom(s, i) by {
          if j' :| IsMatch(s, i, j') {
            MatchUsesWholeRun(s, i, j');
          }
        }
        Search(s, i + 1)
  }

  /**
   * `parseDuration`: the value of the leftmost `digits unit` match scaled to
   * milliseconds, or `null` when the string has no such match.
   */
  function ParseDuration(s: string): (r: Option<nat>)
    ensures r.None? <==> forall k :: 0 <= k < |s| ==> !MatchesFrom(s, k)
    ensures r.Some? ==> exists i, j ::
      && IsMatch(s, i, j)
      && (forall k :: 0 <= k < i ==> !MatchesFrom(s, k))
      && r.value == DecimalValue(s[i..j]) * UnitMillis(s[j])
  {
    match Search(s, 0)
    case None => None
    case Some((i, j)) =>
      assert MatchesFrom(s, i);
      Some(DecimalValue(s[i..j]) * UnitMillis(s[j]))
  }

  /** The timeout handler's `!duration`: both `null` and `0` are rejected. */
  function TimeoutDuration(arg: string): (r: Option<nat>)
    ensures r.Some? <==> ParseDuration(arg).Some? && ParseDuration(arg).value != 0
    ensures r.Some? ==> r.value > 0 && r == ParseDuration(arg)
  {
    match ParseDuration(arg)
    case None => None
    case Some(v) => if v == 0 then None else Some(v)
  }

  /** The decimal digit for 0 <= d < 10. */
  function Digit(d: nat): char
    requires d < 10
  {
    ('0' as int + d) as char
  }

  /** The decimal numeral of n, without leading zeros. */
  function Decimal(n: nat): (s: string)
    ensures |s| > 0 && AllDigits(s)
    decreases n
  {
    if n < 10 then [Digit(n)] else Decimal(n / 10) + [Digit(n % 10)]
  }

  /** `parseInt` reads a numeral back as the number it was written from. */
  lemma {:induction false} DecimalRoundTrip(n: nat)
    ensures DecimalValue(Decimal(n)) == n
    decreases n
  {
    var s := Decimal(n);
    if n >= 10 {
      assert s[..|s| - 1] == Decimal(n / 10);
      DecimalRoundTrip(n / 10);
    }
  }

  /** A numeral directly followed by a unit parses to that many units in milliseconds. */
  lemma DurationRoundTrip(n: nat, u: char)
    requires IsUnit(u)
    ensures ParseDuration(Decimal(n) + [u]) == Some(n * UnitMillis(u))
  {
    var s := Decimal(n) + [u];
    var d := |Decimal(n)|;
    assert s[0..d] == Decimal(n);
    assert IsMatch(s, 0, d);
    MatchUsesWholeRun(s, 0, d);
    assert Search(s, 0) == Some((0, d));
    DecimalRoundTrip(n);
  }

  /** A zero amount such as `0s` parses, but the timeout handler rejects it as invalid. */
  lemma ZeroDurationRejected(u: char)
    requires IsUnit(u)
    ensures ParseDuration(Decimal(0) + [u]) == Some(0)
    ensures TimeoutDuration(Decimal(0) + [u]).None?
  {
    DurationRoundTrip(0, u);
  }

  /** What `/purge` answers. */
  datatype PurgeReply = PurgeDenied | PurgeOutOfRange | Purged(amount: nat)

  /** `/purge amount`: the staff role check, then the bound `amount < 1 || amount > 100`. */
  function Purge(isStaff: bool, amount: int): (r: PurgeReply)
    ensures !isStaff ==> r == PurgeDenied
    ensures r.Purged? <==> isStaff && 1 <= amount <= 100
    ensures r.Purged? ==> r.amount == amount
  {
    if !isStaff then PurgeDenied
    else if amount < 1 || amount > 100 then PurgeOutOfRange
    else Purged(amount)
  }
}

=== FILE: text.dfy ===
/**
 * The JavaScript string operations the workflow relies on: `startsWith`,
 * `includes`, `split` on one separator character, and array reversal.
 */
module Text {

  /** `s.startsWith(p)`. */
  predicate StartsWith(s: string, p: string)
  {
    |p| <= |s| && s[..|p|] == p
  }

  /** `s.includes(t)`: t starts at some position of s, tried left to right. */
  predicate Contains(s: string, t: string)
    decreases |s|
  {
    StartsWith(s, t) || (|s| > 0 && Contains(s[1..], t))
  }

  /** An occurrence of t at position i of s. */
  predicate OccursAt(s: string, t: string, i: int)
  {
    0 <= i <= |s| && StartsWith(s[i..], t)
  }

  /** The left-to-right search agrees with the positional definition of an occurrence. */
  lemma {:induction false} ContainsIffOccurs(s: string, t: string)
    ensures Contains(s, t) <==> exists i :: OccursAt(s, t, i)
    decreases |s|
  {
    if Contains(s, t) {
      if StartsWith(s, t) {
        assert s[0..] == s;
        assert OccursAt(s, t, 0);
      } else {
        ContainsIffOccurs(s[1..], t);
        var i :| OccursAt(s[1..], t, i);
        assert s[1..][i..] == s[i + 1..];
        assert OccursAt(s, t, i + 1);
      }
    } else if i :| OccursAt(s, t, i) {
      if i == 0 {
        assert false;
      } else {
        assert s[1..][i - 1..] == s[i..];
        assert OccursAt(s[1..], t, i - 1);
        ContainsIffOccurs(s[1..], t);
        assert false;
      }
    }
  }

  /** A string containing t keeps containing it when anything is put in front. */
  lemma {:induction false} ContainsAfterPrefix(p: string, u: string, t: string)
    requires Contains(u, t)
    ensures Contains(p + u, t)
    decreases |p|
  {
    if |p| > 0 {
      assert (p + u)[1..] == p[1..] + u;
      ContainsAfterPrefix(p[1..], u, t);
    } else {
      assert p + u == u;
    }
  }

  /** q, read from its start, agrees with t over their common length. */
  predicate Compatible(q: string, t: string)
  {
    if |q| <= |t| then t[..|q|] == q else q[..|t|] == t
  }

  /** No occurrence of t can start inside p, whatever follows p. */
  predicate NoOverlap(p: string, t: string)
    decreases |p|
  {
    |p| == 0 || (!Compatible(p, t) && NoOverlap(p[1..], t))
  }

  /** No occurrence of t can start in p when p lacks t's first character. */
  lemma {:induction false} NoOverlapWithoutFirst(p: string, t: string)
    requires |t| > 0 && t[0] !in p
    ensures NoOverlap(p, t)
    decreases |p|
  {
    if |p| > 0 {
      assert t[0] !in p[1..];
      NoOverlapWithoutFirst(p[1..], t);
    }
  }

  /** Every occurrence of t in p + u lies inside u when none can start in p. */
  lemma {:induction false} OccurrenceIsInSuffix(p: string, u: string, t: string)
    requires NoOverlap(p, t)
    requires Contains(p + u, t)
    ensures Contains(u, t)
    decreases |p|
  {
    if |p| == 0 {
      assert p + u == u;
    } else {
      assert (p + u)[1..] == p[1..] + u;
      OccurrenceIsInSuffix(p[1..], u, t);
    }
  }

  /** `parts.join(d)`. */
  function Join(parts: seq<string>, d: char): string
    requires |parts| >= 1
    decreases |parts|
  {
    if |parts| == 1 then parts[0] else parts[0] + [d] + Join(parts[1..], d)
  }

  /** `s.split(d)` for a one-character separator: the pieces between separators, empty ones included. */
  function Split(s: string, d: char): (parts: seq<string>)
    ensures |parts| >= 1
    ensures Join(parts, d) == s
    ensures forall i :: 0 <= i < |parts| ==> d !in parts[i]
    decreases |s|
  {
    if |s| == 0 then [""]
    else
      var rest := Split(s[1..], d);
      if s[0] == d then
        assert ([""] + rest)[1..] == rest;
        [""] + rest
      else
        var parts := [[s[0]] + rest[0]] + rest[1..];
        assert parts[1..] == rest[1..];
        assert |rest| > 1 ==> Join(rest, d) == rest[0] + [d] + Join(rest[1..], d);
        assert s == [s[0]] + s[1..];
        parts
  }

  /** Number of occurrences of a character. */
  function Count(s: string, ch: char): nat
    decreases |s|
  {
    if |s| == 0 then 0 else (if s[0] == ch then 1 else 0) + Count(s[1..], ch)
  }

  lemma {:induction false} CountAppend(a: string, b: string, ch: char)
    ensures Count(a + b, ch) == Count(a, ch) + Count(b, ch)
    decreases |a|
  {
    if |a| == 0 {
      assert a + b == b;
    } else {
      assert (a + b)[1..] == a[1..] + b;
      CountAppend(a[1..], b, ch);
    }
  }

  lemma {:induction false} CountAbsent(s: string, ch: char)
    requires ch !in s
    ensures Count(s, ch) == 0
    decreases |s|
  {
    if |s| > 0 {
      assert ch !in s[1..];
      CountAbsent(s[1..], ch);
    }
  }

  /** `s.split(d)` has one more piece than s has separators. */
  lemma {:induction false} SplitCount(s: string, d: char)
    ensures |Split(s, d)| == Count(s, d) + 1
    decreases |s|
  {
    if |s| > 0 {
      SplitCount(s[1..], d);
    }
  }

  /** A string without the separator splits into itself. */
  lemma {:induction false} SplitWithoutSeparator(s: string, d: char)
    requires d !in s
    ensures Split(s, d) == [s]
    decreases |s|
  {
    if |s| > 0 {
      assert d !in s[1..];
      SplitWithoutSeparator(s[1..], d);
      assert [s[0]] + s[1..] == s;
    }
  }

  /** Splitting after a separator-free first piece yields that piece, then the split of the rest. */
  lemma {:induction false} SplitAfterPiece(p: string, d: char, t: string)
    requires d !in p
    ensures Split(p + [d] + t, d) == [p] + Split(t, d)
    decreases |p|
  {
    var s := p + [d] + t;
    if |p| == 0 {
      assert s == [d] + t;
      assert s[1..] == t;
    } else {
      assert s[1..] == p[1..] + [d] + t;
      assert d !in p[1..];
      SplitAfterPiece(p[1..], d, t);
      assert [p[0]] + p[1..] == p;
    }
  }

  /** Split undoes Join when no piece contains the separator. */
  lemma {:induction false} SplitJoin(parts: seq<string>, d: char)
    requires |parts| >= 1
    requires forall i :: 0 <= i < |parts| ==> d !in parts[i]
    ensures Split(Join(parts, d), d) == parts
    decreases |parts|
  {
    if |parts| == 1 {
      SplitWithoutSeparator(parts[0], d);
    } else {
      assert d !in parts[0];
      SplitJoin(parts[1..], d);
      SplitAfterPiece(parts[0], d, Join(parts[1..], d));
      assert [parts[0]] + parts[1..] == parts;
    }
  }

  /** `Array.prototype.reverse`. */
  function Reverse<T>(s: seq<T>): (r: seq<T>)
    ensures |r| == |s|
    ensures forall i :: 0 <= i < |s| ==> r[i] == s[|s| - 1 - i]
    decreases |s|
  {
    if |s| == 0 then [] else Reverse(s[1..]) + [s[0]]
  }

  /** Reversing twice gives back the original order. */
  lemma ReverseReverse<T>(s: seq<T>)
    ensures Reverse(Reverse(s)) == s
  {
    var r := Reverse(Reverse(s));
    assert forall i :: 0 <= i < |s| ==> r[i] == s[i];
  }
}

=== FILE: transcript.dfy ===
/**
 * What `closeTicket` writes to the archive: the transcript text built from
 * the fetched history, and the choice of transcript channel by channel name.
 */
module Transcript {
  import opened Text
  import opened Domain

  /** The transcript's first line and the blank line after it. */
  function Header(name: string): string
  {
    "Transcript of " + name + ":\n\n"
  }

  /** One message as `tag: content` and a newline. */
  function Line(m: Message): string
  {
    m.author + ": " + m.content + "\n"
  }

  /** The lines of the messages, in the order given: every message ends at least one line. */
  function Lines(ms: seq<Message>): (r: string)
    ensures Count(r, '\n') >= |ms|
    decreases |ms|
  {
    if |ms| == 0 then ""
    else
      var line := Line(ms[0]);
      var rest := Lines(ms[1..]);
      CountAppend(ms[0].author + ": " + ms[0].content, "\n", '\n');
      CountAppend(line, rest, '\n');
      line + rest
  }

  /**
   * The transcript of a channel named `name` whose history, oldest first, is
   * `ms`: the header, then at least one line per message.
   */
  function Render(name: string, ms: seq<Message>): (r: string)
    ensures StartsWith(r, Header(name))
    ensures Count(r, '\n') >= |ms| + 2
  {
    assert Header(name) == ("Transcript of " + name + ":") + "\n\n";
    assert Count("\n\n", '\n') == 2 by {
      assert "\n\n"[1..] == "\n" && "\n"[1..] == "";
    }
    CountAppend("Transcript of " + name + ":", "\n\n", '\n');
    CountAppend(Header(name), Lines(ms), '\n');
    assert (Header(name) + Lines(ms))[..|Header(name)|] == Header(name);
    Header(name) + Lines(ms)
  }

  /** Rendering a concatenation renders each part in turn. */
  lemma {:induction false} LinesAppend(a: seq<Message>, b: seq<Message>)
    ensures Lines(a + b) == Lines(a) + Lines(b)
    decreases |a|
  {
    if |a| == 0 {
      assert a + b == b;
    } else {
      assert (a + b)[1..] == a[1..] + b;
      LinesAppend(a[1..], b);
    }
  }

  /**
   * The `messages.reverse().forEach(...)` loop: `fetched` arrives newest
   * first and each message, taken oldest first, appends its line.
   */
  method BuildTranscript(name: string, fetched: seq<Message>) returns (t: string)
    ensures t == Render(name, Reverse(fetched))
  {
    var ms := Reverse(fetched);
    t := Header(name);
    var i := 0;
    while i < |ms|
      invariant 0 <= i <= |ms|
      invariant t == Header(name) + Lines(ms[..i])
    {
      LinesAppend(ms[..i], [ms[i]]);
      assert ms[..i + 1] == ms[..i] + [ms[i]];
      t := t + Line(ms[i]);
      i := i + 1;
    }
    assert ms[..i] == ms;
  }

  /** A message whose tag and content are single lines. */
  predicate SingleLine(m: Message)
  {
    '\n' !in m.author && '\n' !in m.content
  }

  /** The body holds exactly one line per message when no message spans lines. */
  lemma {:induction false} OneLinePerMessage(ms: seq<Message>)
    requires forall i :: 0 <= i < |ms| ==> SingleLine(ms[i])
    ensures Count(Lines(ms), '\n') == |ms|
    decreases |ms|
  {
    if |ms| > 0 {
      var m := ms[0];
      assert SingleLine(m);
      CountAbsent(m.author, '\n');
      CountAbsent(m.content, '\n');
      CountAbsent(": ", '\n');
      CountAppend(m.author, ": ", '\n');
      CountAppend(m.author + ": ", m.content, '\n');
      CountAppend(m.author + ": " + m.content, "\n", '\n');
      CountAppend(Line(m), Lines(ms[1..]), '\n');
      OneLinePerMessage(ms[1..]);
    }
  }

  /**
   * What `closeTicket` renders: the history is fetched newest first and
   * reversed again before rendering. This is the string `BuildTranscript`
   * computes from that fetch; both equal `Render` of the history oldest
   * first, so the two describe one operation.
   */
  function FetchedTranscript(name: string, history: seq<Message>): (t: string)
    ensures t == Render(name, history)
  {
    var fetched := Reverse(history);
    ReverseReverse(history);
    Render(name, Reverse(fetched))
  }

  /** The name tests of `closeTicket`: robux, then vbucks, then cod, else the general archive. */
  function ArchiveKind(name: string): (k: TicketKind)
    ensures k == Robux <==> Contains(name, KindName(Robux))
    ensures k == Vbucks <==> Contains(name, KindName(Vbucks)) && !Contains(name, KindName(Robux))
    ensures k == Cod <==>
      Contains(name, KindName(Cod)) && !Contains(name, KindName(Robux)) && !Contains(name, KindName(Vbucks))
    ensures k == General <==> MarkerFree(name)
  {
    if Contains(name, KindName(Robux)) then Robux
    else if Contains(name, KindName(Vbucks)) then Vbucks
    else if Contains(name, KindName(Cod)) then Cod
    else General
  }

  /** A username that does not mention any of the three archive markers. */
  predicate MarkerFree(username: string)
  {
    && !Contains(username, KindName(Robux))
    && !Contains(username, KindName(Vbucks))
    && !Contains(username, KindName(Cod))
  }

  /** A marker cannot start inside the `type-` part of a ticket name of another kind. */
  lemma PrefixesDoNotOverlap()
    ensures NoOverlap(KindName(General) + "-", KindName(Robux))
    ensures NoOverlap(KindName(General) + "-", KindName(Vbucks))
    ensures NoOverlap(KindName(General) + "-", KindName(Cod))
    ensures NoOverlap(KindName(Vbucks) + "-", KindName(Robux))
    ensures NoOverlap(KindName(Cod) + "-", KindName(Robux))
    ensures NoOverlap(KindName(Cod) + "-", KindName(Vbucks))
  {
    NoOverlapWithoutFirst(KindName(General) + "-", KindName(Robux));
    NoOverlapWithoutFirst(KindName(General) + "-", KindName(Vbucks));
    NoOverlapWithoutFirst(KindName(Vbucks) + "-", KindName(Robux));
    NoOverlapWithoutFirst(KindName(Cod) + "-", KindName(Robux));
    NoOverlapWithoutFirst(KindName(Cod) + "-", KindName(Vbucks));
    // "cod_ticket" could only start at the `c` of "ticket-", where `k` follows instead of `o`.
    var p := KindName(General) + "-";
    NoOverlapWithoutFirst(p[3..], KindName(Cod));
    assert p[3..][1..] == p[4..];
    assert !Compatible(p[2..], KindName(Cod)) by { assert p[2..][1] != KindName(Cod)[1]; }
    assert p[2..][1..] == p[3..];
    assert !Compatible(p[1..], KindName(Cod)) by { assert p[1..][0] != KindName(Cod)[0]; }
    assert p[1..][1..] == p[2..];
    assert !Compatible(p, KindName(Cod)) by { assert p[0] != KindName(Cod)[0]; }
  }

  /** A ticket created as `${type}-${username}` is archived under its own type when the username has no marker. */
  lemma {:induction false} ArchiveOfTicketName(k: TicketKind, username: string)
    requires MarkerFree(username)
    ensures ArchiveKind(TicketName(k, username)) == k
  {
    var p := KindName(k) + "-";
    var name := TicketName(k, username);
    assert name == p + username;
    PrefixesDoNotOverlap();
    if Contains(name, KindName(Robux)) && k != Robux {
      OccurrenceIsInSuffix(p, username, KindName(Robux));
    }
    if Contains(name, KindName(Vbucks)) && k != Vbucks && k != Robux {
      OccurrenceIsInSuffix(p, username, KindName(Vbucks));
    }
    if Contains(name, KindName(Cod)) && k == General {
      OccurrenceIsInSuffix(p, username, KindName(Cod));
    }
    if k != General {
      assert StartsWith(name, KindName(k)) by {
        assert name[..|KindName(k)|] == KindName(k);
      }
    }
  }

  /** A username carrying a marker sends even a general ticket to that marker's archive. */
  lemma MarkerInUsernameRedirects(k: TicketKind, username: string)
    requires Contains(username, KindName(Robux))
    ensures ArchiveKind(TicketName(k, username)) == Robux
  {
    ContainsAfterPrefix(KindName(k) + "-", username, KindName(Robux));
    assert TicketName(k, username) == KindName(k) + "-" + username;
  }
}

=== FILE: wrappers.dfy ===
/** The optional value used wherever the source yields `undefined` or `null`. */
module Wrappers {

  datatype Option<+T> = None | Some(value: T)
}
